=== FILE: README.md ===
# softrm deletion-group lifecycle, in Dafny

softrm is a "safe delete" command-line tool. `rm` moves its arguments into a
fresh *deletion group* directory inside a trash directory. The group is named
`<timestamp>-<id>`, where the id is the reversed base-36 nanosecond clock. Each
argument is stored below the group at its own path, its *mirror*. `restore`
walks down a group while each directory holds exactly one entry that is a
directory. The names passed on the way are taken as the original location,
everything found at the bottom is moved back there, and the group is removed.
`flush` permanently deletes named groups, or with `--all` the whole trash.
Short ids typed by the user are resolved against the group names by prefix,
with ambiguity detection.

The model is a set of pure functions over a finite directory tree
(`FileTree.Node`). Stat, ReadDir, MkdirAll, Rename and RemoveAll are total
functions that return `Result` values, and an abort of the program is a status
value of the command's outcome. The modules:

- `DeletionIds`: base-36 formatting, reversal, the group name and the id part after the last dash.
- `FileTree`: the tree, the mode string check and the file-system operations, with their frame lemmas.
- `Common`: `ensureDirExists` and short-id resolution (`getSelectedDeletionGroups`).
- `RemoveCmd`: the `rm` command. `RestoreCmd`: the `restore` command. `FlushCmd`: the `flush` command.
- `Sequential`: a generic "run steps until the first failure" loop. rm and restore both use it, as their move loops have the same shape.
- `Lifecycle`: rm of one file followed by restore of its group.

## Model

| member | source | states |
|---|---|---|
| DeletionIds.FormatInt | cmd/rm.go:131 | base 36 of a non-negative time uses only the digits 0-9 and a-z; a negative time gets a leading minus sign |
| DeletionIds.NewId | cmd/rm.go:130-131 | computes the id as the reversed base-36 nanosecond time; its properties are stated by `DeletionIds.NewIdAlphabet`, `DeletionIds.NewIdRoundTrip` and `DeletionIds.NewIdInjective` |
| DeletionIds.InstanceName | cmd/rm.go:129-133 | computes `timestamp-id`; `DeletionIds.IdPartOfName` and `DeletionIds.InstanceNameRoundTrip` state that the id part reads back from it |
| DeletionIds.IdPart | cmd/common.go:71 | computes the text after the last dash; `DeletionIds.IdPartShape` states its shape |
| DeletionIds.Reverse | cmd/rm.go:125-131 | the reversal has the same length, and character i is character n-1-i of the input |
| DeletionIds.LastIndex | cmd/common.go:71 | the returned position holds the dash and no later position does; -1 means there is no dash |
| DeletionIds.IdPartShape | cmd/common.go:71 | the id part is a dash-free suffix of the name, preceded by a dash unless it is the whole name |
| DeletionIds.ParseFormatNat | cmd/rm.go:131 | reading the base-36 digits back gives the number |
| DeletionIds.ReverseReverse | cmd/rm.go:131 | reversing twice gives the string back |
| DeletionIds.NewIdAlphabet | cmd/rm.go:130-131 | for a time at or after the epoch the id holds only base-36 digits and no dash |
| DeletionIds.NewIdRoundTrip | cmd/rm.go:130-131 | reversing the id and reading it in base 36 gives the nanosecond time back |
| DeletionIds.NewIdInjective | cmd/rm.go:130-131 | distinct non-negative times give distinct ids |
| DeletionIds.IdPartOfName | cmd/rm.go:132 | the text after the last dash of `timestamp-id` is `id` when the id has no dash, whatever the timestamp holds |
| DeletionIds.InstanceNameRoundTrip | cmd/rm.go:129-133 | the registry's id part of a new group name is the generated id, and it decodes to the nanosecond time |
| DeletionIds.NegativeTimeLosesId | cmd/rm.go:130-132 | for a time before the epoch the minus sign ends up last, so the id part read back is empty |
| FileTree.OwnerRwxBits | cmd/common.go:25 | characters 1 to 3 read `rwx` exactly when the owner has all three bits (0700 and up) |
| FileTree.Stat | cmd/rm.go:50 | stat reports a directory or a file exactly when one is at the path, and ENOTDIR exactly when a proper prefix is a file |
| FileTree.ReadDir | cmd/restore.go:59 | a listing succeeds exactly on a directory the owner may read, and returns its entries |
| FileTree.RemoveAt | cmd/flush.go:91 | `os.RemoveAll` as a total function; `FileTree.LookupRemoveAt` states its effect |
| FileTree.LookupRemoveAt | cmd/flush.go:91 | after removing a path, nothing is at it or below it, paths unrelated to it are untouched, and its ancestors keep their kind and mode |
| FileTree.MkdirAll | cmd/rm.go:62 | `os.MkdirAll(p, 0700)`; `FileTree.MkdirAllSucceeds`, `FileTree.MkdirAllExisting` and `FileTree.LookupMkdirAll` state when it fails and what it leaves |
| FileTree.Rename | cmd/rm.go:79 | `os.Rename`: an existing directory at the new path is refused with EEXIST, then the rules of rename(2) apply (busy root, missing source, destination below the source, missing destination directory, a directory onto a file); `FileTree.RenameOntoDirectory`, `FileTree.RenameEffect` and `FileTree.RenameAncestors` state its effect |
| FileTree.MkdirAllSucceeds | cmd/common.go:52 | MkdirAll fails exactly when the path or one of its prefixes is a file |
| FileTree.MkdirAllExisting | cmd/common.go:52 | MkdirAll of an existing directory changes nothing |
| FileTree.LookupMkdirAll | cmd/rm.go:62 | after MkdirAll every prefix of the path is a directory, existing nodes on the path keep their kind and mode, a missing target is a new empty 0700 directory, and paths off the created path are untouched |
| FileTree.RenameEffect | cmd/rm.go:79 | a successful rename puts the source subtree at the destination, leaves nothing at the source, and leaves paths unrelated to both untouched |
| FileTree.RenameAncestors | cmd/rm.go:79 | a rename keeps the kind and mode of every proper ancestor of source and destination |
| FileTree.RenameOntoDirectory | cmd/restore.go:82 | the rename fails with EEXIST exactly when the source exists and the new path is a directory, empty or not; a successful rename went onto a missing path or a file |
| FileTree.RenameOntoEmptyDirectory | cmd/restore.go:82 | restoring a directory `s` onto an existing empty directory `d` fails with EEXIST |
| FileTree.MkdirRenameEffect | cmd/rm.go:72-79 | creating the destination's parent, then renaming: the subtree moves and unrelated paths are untouched |
| Common.EnsureDirExists | cmd/common.go:21-57 | passes exactly for an owner-rwx directory or a missing path, leaves an existing one as is, creates a missing one empty with 0700 and touches nothing beside it; a file aborts with "not a directory", a file along the path aborts with the stat error |
| Common.CreateMissingDir | cmd/common.go:51-57 | creating a directory stat reports missing succeeds, gives an empty 0700 directory and changes no other path |
| Common.MatchingContents | cmd/common.go:71-73 | the matches of a short id are the listed names whose id part starts with it, each as often as it is listed |
| Common.MatchingIgnoresOrder | cmd/common.go:76-79 | the number of matches, and the only match when there is one, do not depend on the listing order |
| Common.CountBoundFull | cmd/common.go:86-92 | `found` equals the number of slots exactly when every slot is bound |
| Common.CountBoundBind | cmd/common.go:85-86 | binding an unbound slot raises `found` by one |
| Common.SlotStep | cmd/common.go:73-86 | one listing entry binds an unbound matching slot to its group, leaves a non-matching slot, and a second match means two matches |
| Common.ScanEntry | cmd/common.go:69-88 | after one listing entry each slot is bound to the single match seen so far and `found` counts the bound slots; otherwise the reported id has two or more matches |
| Common.FirstUnboundSlot | cmd/common.go:93-98 | reports the first unbound slot, or none exactly when every slot is bound |
| Common.ScannedComplete | cmd/common.go:68-89 | after the whole listing a slot is bound exactly when its short id has exactly one match, and then to that match's group |
| Common.SelectedGroupsMatch | cmd/common.go:71-85 | each bound group's id starts with its short id, is the id part of its starting directory, and that directory is listed |
| Common.SelectDeletionGroups | cmd/common.go:63-102 | succeeds exactly when every short id has exactly one match; then the result has one group per short id, in order, the group of that match; two matches abort as ambiguous, no match aborts as not found |
| Common.SelectAsWrittenMissesUnknownId | cmd/common.go:76 | with short ids `""`, `x` and groups `t-`, `u-` the function as written returns normally although `x` matches nothing |
| Common.SelectAsWritten | cmd/common.go:63-102 | the function as written: a result has one group per short id, and an abort names one of the short ids |
| Common.ScanDirsAgrees | cmd/common.go:68-89 | with no empty short id, the listing loop as written either aborts as ambiguous on a short id that has two matches, or leaves exactly the slots of the corrected scan, with `found` counting the bound ones |
| Common.SelectAsWrittenAgrees | cmd/common.go:63-102 | with no empty short id, the function as written succeeds exactly when every short id has one match, returns the groups of those matches, and aborts as ambiguous or not found on the same grounds as the corrected resolution |
| RemoveCmd.EnsureTrashDirExists | cmd/rm.go:96-123 | the trash passes exactly when it is an owner-rwx directory or missing; an existing one is left as it is |
| RemoveCmd.EnsureTrashDirExistsAgrees | cmd/rm.go:96-123 | the older check in rm decides exactly like `ensureDirExists` of the shared code |
| RemoveCmd.FirstMissing | cmd/rm.go:48-54 | reports an argument stat finds missing, or none exactly when no argument is missing |
| RemoveCmd.MoveArg | cmd/rm.go:71-82 | creates the mirror's parent below the group, then renames the argument to its mirror path; `RemoveCmd.MoveArgEffect` states its effect |
| RemoveCmd.MoveAll | cmd/rm.go:70-83 | the loop ends with the group name on success or with the failing step's error; `RemoveCmd.MoveAllDone` and `RemoveCmd.MoveAllNoRollback` state when it completes and what a failure leaves |
| RemoveCmd.RemoveRun | cmd/rm.go:42-88 | help is shown exactly when there are no arguments, and changes nothing; a missing argument aborts exactly when there is one, before anything changes; when every argument exists and the trash check fails, rm aborts with that error and the tree unchanged; rm completes exactly when no argument is missing, the trash check passes, the group directory is created and every argument moves in turn, and then leaves the tree of those moves in the group named by the trash and the new name; it reports a failure exactly when every argument exists and the trash check passes but the group creation or a move fails, and that failure leaves the tree as the group creation failed on it, or as the first k moves left it when argument k failed |
| RemoveCmd.MoveAllDone | cmd/rm.go:70-83 | the move loop completes exactly when all arguments can be moved one after another, and then leaves the tree those moves give |
| RemoveCmd.MoveAllNoRollback | cmd/rm.go:72-82 | a failed loop stopped at some argument k whose mkdir or rename failed, and the first k moves stay in place |
| RemoveCmd.MoveArgEffect | cmd/rm.go:71-82 | one move puts the argument's subtree at `group + mirror`, removes it from its place and leaves unrelated paths untouched |
| RestoreCmd.IsWalkStep | cmd/restore.go:62-66 | below a readable directory with exactly one entry that is a directory, the walk goes down into that entry |
| RestoreCmd.Walk | cmd/restore.go:56-71 | computes the walked names; `RestoreCmd.WalkIsWalk` relates it to the step predicate `RestoreCmd.IsWalk` |
| RestoreCmd.WalkIsWalk | cmd/restore.go:56-71 | the walk returns exactly the path whose directories are all readable, each holding only the next one, until one that stops the walk |
| RestoreCmd.WalkFailsOnlyOnPermission | cmd/restore.go:59-60 | started on a directory, the walk can fail only on a directory it may not read |
| RestoreCmd.WalkErrors | cmd/restore.go:59-60 | the walk fails with "not a directory" on a file and with "permission denied" otherwise |
| RestoreCmd.WalkChain | cmd/restore.go:58-73 | a group holding only the directories of a path, ending in a directory that stops the walk, walks back to exactly that path |
| RestoreCmd.RootStringSplits | cmd/restore.go:73 | the restore root starts with `/`, and splitting the rest at `/` gives the walked names back |
| RestoreCmd.MoveItemsDone | cmd/restore.go:81-87 | the item loop completes exactly when all items can be renamed to `root/<name>` one after another, and then leaves that tree |
| RestoreCmd.MoveItemsNoRollback | cmd/restore.go:82-86 | a failed item loop stopped at an item whose rename failed, with the earlier items already moved |
| RestoreCmd.RestoreGroup | cmd/restore.go:53-90 | completes exactly when the walk, the restore-root check, the leaf's listing and every item's rename to `root/<name>` succeed, and then the tree is the moved tree with the group directory removed; a missing group or a failed walk aborts with a read error and changes nothing |
| RestoreCmd.RestoreGroupRemovesOnlyAfterMoves | cmd/restore.go:81-90 | a completed restore removed the group only after every item was moved; a restore that fails leaves the tree as it was, as the restore-root check left it, or as the moves before the failing one left it, and does not remove the group |
| RestoreCmd.RestoreAll | cmd/restore.go:52-93 | the run ends completed, or with the read, restore-root or move failure of a group; `RestoreCmd.RestoreAllDone` and `RestoreCmd.RestoreAllNoRollback` state when it completes and what a failure leaves |
| RestoreCmd.RestoreRun | cmd/restore.go:34-96 | help is shown exactly when there are no arguments; an unusable trash is reported exactly when there are arguments and the trash check fails, and then nothing changes |
| RestoreCmd.RestoreAllDone | cmd/restore.go:52-93 | the group loop completes exactly when each named group, in order, is restored from the tree the earlier ones left, and then leaves the tree of the last |
| RestoreCmd.RestoreAllNoRollback | cmd/restore.go:52-93 | a failed group loop stopped at some group k, started from the tree with the first k groups restored, and its outcome is that group's failed restore |
| RestoreCmd.RestoreRunDone | cmd/restore.go:34-96 | restore completes exactly when there are group names, the trash check passes and every group is restored in turn, and then leaves that tree |
| FlushCmd.IdMapKeys | cmd/flush.go:72-77 | the map's keys are exactly the id parts of the listed names |
| FlushCmd.IdMap | cmd/flush.go:72-77 | computes the id-part map; `FlushCmd.IdMapKeys` and `FlushCmd.IdMapLastWins` state its keys and values |
| FlushCmd.IdMapLastWins | cmd/flush.go:73-77 | an id part is mapped to the last listed name that carries it |
| FlushCmd.FirstUnknown | cmd/flush.go:78-84 | reports an argument that is no key of the map, or none exactly when every argument is a key |
| FlushCmd.RemoveGroups | cmd/flush.go:87-93 | removes the mapped group of each id in order; `FlushCmd.RemoveGroupsEffect` and `FlushCmd.RemoveGroupsFrame` state its effect |
| FlushCmd.Flush | cmd/flush.go:38-94 | help is shown exactly when there are no ids and no `--all`, and ids with `--all` are rejected exactly then, both without change; a failed trash check aborts with its error and the tree unchanged, in either mode; once the check passed, an id reported unknown happens exactly when some id is no key of the map, and then nothing is deleted, and the flush completes exactly when every id is a key |
| FlushCmd.RemoveGroupsEffect | cmd/flush.go:89-92 | a group directory is gone exactly when some argument maps to it; otherwise it is as it was |
| FlushCmd.RemoveGroupsFrame | cmd/flush.go:89-92 | removing groups leaves every path beside the trash directory alone |
| FlushCmd.FlushRemovesOnlyNamedGroups | cmd/flush.go:87-93 | a completed flush with ids removes exactly the groups the ids map to, and all other groups remain |
| FlushCmd.RecreateTrash | cmd/flush.go:61-64 | removing the trash directory and creating it again gives an empty 0700 directory |
| FlushCmd.FlushKeepsOutside | cmd/flush.go:57-93 | flush in either mode leaves every path outside the trash directory as it was |
| FlushCmd.FlushAllEmptiesTrash | cmd/flush.go:57-64 | `flush --all` completes exactly when the trash check passes, and the trash is then an existing, empty 0700 directory |
| Lifecycle.CreateGroup | cmd/rm.go:57-67 | the new group is created as an empty 0700 directory inside a usable trash, and other paths keep their contents or shape |
| Lifecycle.CreateMirrorParent | cmd/rm.go:72-76 | creating the mirror's parent in an empty group gives a chain of single directories |
| Lifecycle.MoveIntoChain | cmd/rm.go:78-82 | renaming the file into that chain leaves the group holding exactly the chain with the file at its end, and the file's place empty |
| Lifecycle.RmOneTree | cmd/rm.go:57-83 | rm's steps for one file give a group with only the mirror chain and the file, an empty source, untouched unrelated paths, and ancestors that keep their shape |
| Lifecycle.RmOne | cmd/rm.go:42-88 | rm of one file outside the trash completes and leaves the tree `RmOneTree` describes |
| Lifecycle.RestoreGroupOne | cmd/restore.go:53-90 | restoring such a group walks to the mirror's parent, moves the file there and removes the group |
| Lifecycle.RestoreOne | cmd/restore.go:34-96 | restore of such a group completes, puts the file at its mirror path, removes the group and leaves unrelated paths untouched |
| Lifecycle.RestoreAfterRmSteps | cmd/restore.go:52-93 | restore after rm's steps completes, the file is at its mirror path and the group is gone |
| Lifecycle.RmThenRestore | cmd/restore.go:53-90 | rm of one file, then restore of its group: both complete, the file is back at its mirror path, the group is gone, and a source path other than the mirror stays empty |
| Lifecycle.RmRestoresOriginalPath | cmd/rm.go:79 | with the mirror taken at the absolute path, rm then restore puts the file back where it was |
| Lifecycle.RmAsWrittenMisplacesRelative | cmd/rm.go:72-79 | as written, a relative argument comes back at the argument taken from `/`, and its real place stays empty |
| Lifecycle.RelativeArgumentComesBackAtRoot | cmd/rm.go:79 | `/home/f` removed as `f` from `/home` comes back as `/f`, and `/home/f` stays empty |
| Lifecycle.RelativeArgumentComesBackHome | cmd/rm.go:79 | with the mirror taken at the absolute path, the same `/home/f` removed as `f` from `/home` comes back at `/home/f` |

## Left out

- cmd/ls.go only prints. Cobra registration, help text, viper and `os.ExpandEnv` are not modelled either, and neither is `fmt` output or the `verbose` flag, which only controls a message.
- `abortAndExit` ends the process. Here each abort is a status value of the command's outcome, and the tree is the tree at that moment.
- The clock is not modelled: the formatted second-precision timestamp and the nanosecond time are parameters. `util.Reverse` is not part of this model either; it is taken as plain character reversal, as the comment above `genDeletionInstanceName` describes it.
- Go path handling (`path.Join`, `Clean`, `filepath.Dir`, `filepath.Abs`) is not modelled. An argument is a list of names with a flag for "absolute", and the trash is an absolute list of names. An argument with no names (`.` or `/`) is refused by the rename with EEXIST, because the new path is then the group directory itself.
- Arguments with `..` segments are outside the model. The program accepts them, and because it joins the argument below the group as given, a cleaned `../f` lands at `trash/f`, beside the groups, and `../../f` outside the trash. This has the same cause as the second finding.
- The file system is a tree of files and directories with the owner's permission bits. There are no symlinks, devices, timestamps or other users. Only ReadDir and the `rwx` checks look at permissions; MkdirAll, Rename and RemoveAll ignore them. RemoveAll never fails.
- Listing order: `ioutil.ReadDir` returns a directory's entries sorted by name, but `FileTree.ReadDir` returns them in the tree's own entry order. `FileTree.Insert` adds names in order, yet no predicate requires an input tree to be sorted. On an unsorted tree, two things differ from the program:
  - `FlushCmd.IdMapLastWins` picks the last carrier of an id part in tree order rather than name order.
  - `RestoreCmd.RestoreGroup` moves the items in tree order, which changes the item at which a failing restore stops.
  Short-id resolution does not depend on the order (`Common.MatchingIgnoresOrder`).
- The `deletionTime` field of `DeletionGroup` is never filled in by the code, so it is dropped.
- `getDeletionGroupIds` and `checkValidityOfIdArgs`, which restore calls, are not part of this model. `RestoreCmd.RestoreRun` takes the resolved group directory names as input.
- Concurrent runs and clock collisions are not modelled: two groups created with the same name are outside the model.
- RestoreCmd.RestoreAll: its own contract states only the kinds of status. `RestoreCmd.RestoreAllDone` and `RestoreCmd.RestoreAllNoRollback` state the rest.
- RestoreCmd.RestoreRun: its own contract covers help and the trash check, in both directions. `RestoreCmd.RestoreRunDone` states when it completes and the tree it leaves.
- FlushCmd.Flush: its own contract does not describe an abort with `--all` from recreating the trash after it was removed, which would leave a changed tree; `FlushCmd.FlushAllEmptiesTrash` shows that with a non-empty trash path `flush --all` completes whenever the trash check passes.
- FlushCmd.FlushAllEmptiesTrash: requires a non-empty trash path, because the root directory itself cannot be removed.
- Common.SelectAsWritten: its own contract states only the shape of the result. `Common.SelectAsWrittenAgrees` relates it to the corrected resolution for every input without an empty short id, and `Common.SelectAsWrittenMissesUnknownId` exhibits the defect with one.
- Lifecycle.RmThenRestore: covers one file argument moved into a fresh group directory. The trash and the file's directory must be usable, and they must lie apart from each other. Several arguments, directories as arguments and several groups restored in one call are not covered by the round trip.
- After `flush --all`, the trash directory is recreated with mode 0700 (cmd/flush.go:61-64), so its former mode is lost. The model does the same.
- rm mirrors each argument below the group as given (cmd/rm.go:72-79), although its help text (cmd/rm.go:36-38) accepts names relative to the working directory. The model does the same. See the second finding.

## Findings

| source | as written | input that shows it | evidently intended | confidence | as-written member | corrected member |
|---|---|---|---|---|---|---|
| cmd/common.go:76 | a slot counts as bound when its group's id is non-empty, but a group whose name ends in a dash has an empty id | short ids `""` and `x`, trash groups `t-` and `u-`: `""` is bound twice without an ambiguity abort, `found` reaches 2, and the call returns with `x` unbound | a second match of the same short id aborts as ambiguous, and an id with no match aborts as not found | not executed | Common.SelectAsWrittenMissesUnknownId | Common.SelectDeletionGroups |
| cmd/rm.go:72-79 | the argument is joined below the group as given, so a relative argument is stored without the working directory | `f` removed from working directory `/home`: restore puts the file at `/f` | the mirror is the argument's absolute path, so that restore puts the file back where it was | not executed | Lifecycle.RelativeArgumentComesBackAtRoot | Lifecycle.RmRestoresOriginalPath |

=== FILE: common.dfy ===
/**
 * Shared helpers of cmd/common.go: the trash-directory check `ensureDirExists`
 * and `getSelectedDeletionGroups`, which binds each short id given on the
 * command line to the one deletion group whose id starts with it.
 */
module Common {
  import opened Results
  import opened FileTree
  import opened DeletionIds

  /** A deletion group as the registry reports it; `deletionTime` is never filled in there. */
  datatype DeletionGroup = DeletionGroup(id: string, startingDir: string)

  /** Why `ensureDirExists` aborts. */
  datatype EnsureError =
    | MissingRwx                  // exists, but the owner lacks one of r, w, x
    | NotADir                     // exists, but is not a directory
    | CreateFailed(cause: FsError)
    | StatFailed                  // stat failed for another reason than "does not exist"

  /**
   * `ensureDirExists`: an existing directory passes only with owner `rwx`, a
   * missing one is created with mode 0700, anything else aborts.
   */
  function EnsureDirExists(fs: Node, dir: Path): (r: Result<Node, EnsureError>)
    ensures r.Ok? <==> (IsDirAt(fs, dir) && Lookup(fs, dir).value.perm >= 448) || Stat(fs, dir).StatMissing?
    ensures r.Ok? && IsDirAt(fs, dir) ==> r.value == fs
    ensures r.Ok? && Lookup(fs, dir).None? ==> Lookup(r.value, dir) == Some(Dir(CreatedDirPerm, []))
    ensures r.Ok? ==> forall q :: !(q <= dir) ==> Lookup(r.value, q) == Lookup(fs, q)
    ensures r == Err(NotADir) <==> IsFileAt(fs, dir)
    ensures r == Err(StatFailed) <==> Stat(fs, dir).StatNotDir?
  {
    match Stat(fs, dir)
    case StatDir(perm) =>
      OwnerRwxBits(perm);
      if OwnerRwx(perm) then Ok(fs) else Err(MissingRwx)
    case StatFile => Err(NotADir)
    case StatNotDir => Err(StatFailed)
    case StatMissing =>
      CreateMissingDir(fs, dir);
      match MkdirAll(fs, dir)
      case Err(e) => Err(CreateFailed(e))
      case Ok(m) => Ok(m)
  }

  /** Creating a directory that stat reports missing succeeds, yields an empty 0700 directory and touches nothing beside it. */
  lemma CreateMissingDir(fs: Node, dir: Path)
    requires Stat(fs, dir).StatMissing?
    ensures MkdirAll(fs, dir).Ok?
    ensures Lookup(MkdirAll(fs, dir).value, dir) == Some(Dir(CreatedDirPerm, []))
    ensures forall q :: !(q <= dir) ==> Lookup(MkdirAll(fs, dir).value, q) == Lookup(fs, q)
  {
    MkdirAllSucceeds(fs, dir);
    assert dir[..|dir|] == dir;
    forall q | !(q <= dir) ensures Lookup(MkdirAll(fs, dir).value, q) == Lookup(fs, q) {
      LookupMkdirAll(fs, dir, q);
    }
    LookupMkdirAll(fs, dir, dir);
  }

  // ---------------------------------------------------------------------
  // Short-id resolution
  // ---------------------------------------------------------------------

  /** `strings.HasPrefix(idPart, curId)` for the id part of a trash directory name. */
  predicate Matches(dirName: string, shortId: string) {
    shortId <= IdPart(dirName)
  }

  /** The trash directories whose id starts with `shortId`, in listing order. */
  function Matching(dirs: seq<string>, shortId: string): seq<string>
  {
    if |dirs| == 0 then []
    else
      var last := dirs[|dirs| - 1];
      Matching(dirs[..|dirs| - 1], shortId) + (if Matches(last, shortId) then [last] else [])
  }

  /** Matching keeps every listed name whose id starts with the short id, as often as it is listed, and nothing else. */
  lemma {:induction false} MatchingCounts(dirs: seq<string>, shortId: string)
    ensures forall d :: multiset(Matching(dirs, shortId))[d] == if Matches(d, shortId) then multiset(dirs)[d] else 0
  {
    if |dirs| > 0 {
      var init, last := dirs[..|dirs| - 1], dirs[|dirs| - 1];
      assert dirs == init + [last];
      MatchingCounts(init, shortId);
      assert multiset(dirs) == multiset(init) + multiset{last};
    }
  }

  /** Every match is a listed name whose id starts with the short id. */
  lemma {:induction false} MatchingMembers(dirs: seq<string>, shortId: string)
    ensures forall i :: 0 <= i < |Matching(dirs, shortId)| ==>
              Matches(Matching(dirs, shortId)[i], shortId) && Matching(dirs, shortId)[i] in dirs
  {
    if |dirs| > 0 {
      var init, last := dirs[..|dirs| - 1], dirs[|dirs| - 1];
      MatchingMembers(init, shortId);
      assert forall x :: x in init ==> x in dirs;
    }
  }

  /** Both facts about the matches together. */
  lemma MatchingContents(dirs: seq<string>, shortId: string)
    ensures forall d :: multiset(Matching(dirs, shortId))[d] == if Matches(d, shortId) then multiset(dirs)[d] else 0
    ensures forall i :: 0 <= i < |Matching(dirs, shortId)| ==>
              Matches(Matching(dirs, shortId)[i], shortId) && Matching(dirs, shortId)[i] in dirs
  {
    MatchingCounts(dirs, shortId);
    MatchingMembers(dirs, shortId);
  }

  function GroupOf(dirName: string): DeletionGroup {
    DeletionGroup(IdPart(dirName), dirName)
  }

  datatype SelectError = Ambiguous(shortId: string) | NotFound(shortId: string)

  /** Which short ids are ambiguous or unknown, and what each one resolves to, depends only on the set of names listed. */
  lemma MatchingIgnoresOrder(dirs: seq<string>, dirs': seq<string>, shortId: string)
    requires multiset(dirs) == multiset(dirs')
    ensures |Matching(dirs, shortId)| == |Matching(dirs', shortId)|
    ensures |Matching(dirs, shortId)| == 1 ==> Matching(dirs, shortId) == Matching(dirs', shortId)
  {
    var a, b := Matching(dirs, shortId), Matching(dirs', shortId);
    MatchingContents(dirs, shortId);
    MatchingContents(dirs', shortId);
    forall d ensures multiset(a)[d] == multiset(b)[d] {
    }
    assert multiset(a) == multiset(b);
    assert |a| == |multiset(a)|;
    if |a| == 1 {
      SingletonMultiset(a, b);
    }
  }

  lemma SingletonMultiset(a: seq<string>, b: seq<string>)
    requires |a| == 1 && multiset(a) == multiset(b)
    ensures a == b
  {
    assert |b| == |multiset(b)| == 1;
    assert a[0] in multiset(b);
  }

  /** Matches among the first `k` names are matches among all of them. */
  lemma {:induction false} MatchingPrefix(dirs: seq<string>, k: nat, shortId: string)
    requires k <= |dirs|
    ensures |Matching(dirs[..k], shortId)| <= |Matching(dirs, shortId)|
    decreases |dirs| - k
  {
    if k < |dirs| {
      MatchingPrefix(dirs, k + 1, shortId);
      assert dirs[..k + 1][..k] == dirs[..k];
    } else {
      assert dirs[..k] == dirs;
    }
  }

  /** Number of bound slots. */
  function CountBound(slots: seq<Option<DeletionGroup>>): nat
  {
    if |slots| == 0 then 0
    else CountBound(slots[..|slots| - 1]) + (if slots[|slots| - 1].Some? then 1 else 0)
  }

  /** Every slot is bound exactly when the count reaches the number of slots. */
  lemma {:induction false} CountBoundFull(slots: seq<Option<DeletionGroup>>)
    ensures CountBound(slots) <= |slots|
    ensures CountBound(slots) == |slots| <==> forall i :: 0 <= i < |slots| ==> slots[i].Some?
  {
    if |slots| > 0 {
      var init := slots[..|slots| - 1];
      CountBoundFull(init);
      assert forall i :: 0 <= i < |init| ==> init[i] == slots[i];
    }
  }

  lemma {:induction false} CountBoundBind(slots: seq<Option<DeletionGroup>>, i: nat, g: DeletionGroup)
    requires i < |slots| && slots[i].None?
    ensures CountBound(slots[i := Some(g)]) == CountBound(slots) + 1
    decreases |slots|
  {
    var s' := slots[i := Some(g)];
    if i < |slots| - 1 {
      assert s'[..|s'| - 1] == slots[..|slots| - 1][i := Some(g)];
      CountBoundBind(slots[..|slots| - 1], i, g);
    } else {
      assert s'[..|s'| - 1] == slots[..|slots| - 1];
    }
  }

  /** What slot `i` holds after the names `seen` were scanned, when no abort has happened. */
  predicate SlotAgrees(slot: Option<DeletionGroup>, shortId: string, seen: seq<string>) {
    var ms := Matching(seen, shortId);
    |ms| <= 1 && (slot.None? <==> |ms| == 0) && (slot.Some? ==> slot.value == GroupOf(ms[0]))
  }

  function Values(slots: seq<Option<DeletionGroup>>): (r: seq<DeletionGroup>)
    requires forall i :: 0 <= i < |slots| ==> slots[i].Some?
    ensures |r| == |slots| && forall i :: 0 <= i < |slots| ==> r[i] == slots[i].value
  {
    if |slots| == 0 then [] else [slots[0].value] + Values(slots[1..])
  }

  /** The slots after the first `d` names of the listing were scanned without an abort. */
  predicate Scanned(ids: seq<string>, dirs: seq<string>, d: nat, slots: seq<Option<DeletionGroup>>)
    requires d <= |dirs|
  {
    |slots| == |ids| && forall i :: 0 <= i < |ids| ==> SlotAgrees(slots[i], ids[i], dirs[..d])
  }

  /** One slot across one listing entry: a first match binds it, a second one is counted. */
  lemma SlotStep(slot: Option<DeletionGroup>, shortId: string, dirs: seq<string>, d: nat)
    requires d < |dirs| && SlotAgrees(slot, shortId, dirs[..d])
    ensures !Matches(dirs[d], shortId) ==> SlotAgrees(slot, shortId, dirs[..d + 1])
    ensures Matches(dirs[d], shortId) && slot.None? ==> SlotAgrees(Some(GroupOf(dirs[d])), shortId, dirs[..d + 1])
    ensures Matches(dirs[d], shortId) && slot.Some? ==> |Matching(dirs[..d + 1], shortId)| >= 2
  {
    MatchingStep(dirs, d, shortId);
  }

  /** Slots `lo` up to `hi` agree with the names `seen`. */
  predicate AgreeRange(slots: seq<Option<DeletionGroup>>, ids: seq<string>, seen: seq<string>, lo: nat, hi: nat)
    requires lo <= hi <= |slots| == |ids|
  {
    forall i :: lo <= i < hi ==> SlotAgrees(slots[i], ids[i], seen)
  }

  /** Moving slot `idx` from the old listing prefix to the new one, possibly rebinding it. */
  lemma {:induction false} AgreeAdvance(slots: seq<Option<DeletionGroup>>, ids: seq<string>, prev: seq<string>, next: seq<string>, idx: nat, v: Option<DeletionGroup>)
    requires idx < |slots| == |ids|
    requires AgreeRange(slots, ids, next, 0, idx) && AgreeRange(slots, ids, prev, idx, |ids|)
    requires SlotAgrees(v, ids[idx], next)
    ensures AgreeRange(slots[idx := v], ids, next, 0, idx + 1)
    ensures AgreeRange(slots[idx := v], ids, prev, idx + 1, |ids|)
  {
    var s' := slots[idx := v];
    forall i | 0 <= i < idx + 1 ensures SlotAgrees(s'[i], ids[i], next) {
      if i < idx { assert s'[i] == slots[i]; }
    }
    forall i | idx + 1 <= i < |ids| ensures SlotAgrees(s'[i], ids[i], prev) {
      assert s'[i] == slots[i];
    }
  }

  /** The whole-listing form of the two ranges. */
  lemma ScannedRanges(ids: seq<string>, dirs: seq<string>, d: nat, slots: seq<Option<DeletionGroup>>)
    requires d <= |dirs| && |slots| == |ids|
    ensures Scanned(ids, dirs, d, slots) <==> AgreeRange(slots, ids, dirs[..d], 0, |ids|)
  {
  }

  /**
   * The inner loop of `getSelectedDeletionGroups` for the listing entry
   * `dirs[d]`: it binds every still unbound slot whose short id the entry
   * matches, and reports the first short id matched a second time.
   */
  method ScanEntry(ids: seq<string>, dirs: seq<string>, d: nat, slots: seq<Option<DeletionGroup>>, found: nat)
    returns (slots': seq<Option<DeletionGroup>>, found': nat, ambiguous: Option<string>)
    requires d < |dirs| && Scanned(ids, dirs, d, slots) && found == CountBound(slots)
    ensures ambiguous.None? ==> Scanned(ids, dirs, d + 1, slots') && found' == CountBound(slots')
    ensures ambiguous.Some? ==> ambiguous.value in ids && |Matching(dirs, ambiguous.value)| >= 2
  {
    var dirName := dirs[d];
    ghost var prev, next := dirs[..d], dirs[..d + 1];
    ScannedRanges(ids, dirs, d, slots);
    slots', found' := slots, found;
    var idx := 0;
    while idx < |ids|
      invariant idx <= |ids| && |slots'| == |ids|
      invariant AgreeRange(slots', ids, next, 0, idx) && AgreeRange(slots', ids, prev, idx, |ids|)
      invariant found' == CountBound(slots')
    {
      assert SlotAgrees(slots'[idx], ids[idx], prev);
      SlotStep(slots'[idx], ids[idx], dirs, d);
      if Matches(dirName, ids[idx]) {
        if slots'[idx].Some? {
          MatchingPrefix(dirs, d + 1, ids[idx]);
          return slots', found', Some(ids[idx]);
        }
        CountBoundBind(slots', idx, GroupOf(dirName));
        AgreeAdvance(slots', ids, prev, next, idx, Some(GroupOf(dirName)));
        slots' := slots'[idx := Some(GroupOf(dirName))];
        found' := found' + 1;
      } else {
        AgreeAdvance(slots', ids, prev, next, idx, slots'[idx]);
        assert slots'[idx := slots'[idx]] == slots';
      }
      idx := idx + 1;
    }
    ScannedRanges(ids, dirs, d + 1, slots');
    return slots', found', None;
  }

  /** The final loop of `getSelectedDeletionGroups`: the position of the first unbound slot. */
  method FirstUnboundSlot(slots: seq<Option<DeletionGroup>>) returns (r: Option<nat>)
    ensures r.Some? ==> r.value < |slots| && slots[r.value].None?
    ensures r.Some? ==> forall i :: 0 <= i < r.value ==> slots[i].Some?
    ensures r.None? <==> forall i :: 0 <= i < |slots| ==> slots[i].Some?
  {
    var idx := 0;
    while idx < |slots|
      invariant idx <= |slots|
      invariant forall i :: 0 <= i < idx ==> slots[i].Some?
    {
      if slots[idx].None? {
        return Some(idx);
      }
      idx := idx + 1;
    }
    return None;
  }

  /**
   * `getSelectedDeletionGroups` with a bound slot marked explicitly. It scans
   * the trash listing once, binding slot `idx` at the first match of
   * `ids[idx]` and aborting at a second one; then every slot must be bound.
   */
  method SelectDeletionGroups(ids: seq<string>, dirs: seq<string>) returns (r: Result<seq<DeletionGroup>, SelectError>)
    ensures r.Ok? <==> forall i :: 0 <= i < |ids| ==> |Matching(dirs, ids[i])| == 1
    ensures r.Ok? ==> |r.value| == |ids|
    ensures r.Ok? ==> forall i :: 0 <= i < |ids| ==> r.value[i] == GroupOf(Matching(dirs, ids[i])[0])
    ensures r.Err? ==> r.error.shortId in ids
    ensures r.Err? && r.error.Ambiguous? ==> |Matching(dirs, r.error.shortId)| >= 2
    ensures r.Err? && r.error.NotFound? ==> |Matching(dirs, r.error.shortId)| == 0
    ensures (exists i :: 0 <= i < |ids| && |Matching(dirs, ids[i])| >= 2) ==> r.Err? && r.error.Ambiguous?
    ensures r.Ok? ==> forall i :: 0 <= i < |ids| ==>
              ids[i] <= r.value[i].id && r.value[i].startingDir in dirs && r.value[i].id == IdPart(r.value[i].startingDir)
  {
    var slots: seq<Option<DeletionGroup>> := seq(|ids|, _ => None);
    var found := 0;
    CountBoundNone(|ids|);
    var d := 0;
    while d < |dirs|
      invariant d <= |dirs| && Scanned(ids, dirs, d, slots)
      invariant found == CountBound(slots)
    {
      var ambiguous;
      slots, found, ambiguous := ScanEntry(ids, dirs, d, slots, found);
      if ambiguous.Some? {
        return Err(Ambiguous(ambiguous.value));
      }
      d := d + 1;
    }
    ScannedComplete(ids, dirs, slots);
    CountBoundFull(slots);
    if found != |ids| {
      var missing := FirstUnboundSlot(slots);
      if missing.Some? {
        return Err(NotFound(ids[missing.value]));
      }
    }
    r := Ok(Values(slots));
    SelectedGroupsMatch(ids, dirs, r.value);
  }

  /** After the whole listing, a slot is bound exactly when its short id matches once. */
  lemma ScannedComplete(ids: seq<string>, dirs: seq<string>, slots: seq<Option<DeletionGroup>>)
    requires Scanned(ids, dirs, |dirs|, slots)
    ensures forall i :: 0 <= i < |ids| ==> |Matching(dirs, ids[i])| <= 1
    ensures forall i :: 0 <= i < |ids| ==> (slots[i].Some? <==> |Matching(dirs, ids[i])| == 1)
    ensures forall i :: 0 <= i < |ids| && slots[i].Some? ==> slots[i].value == GroupOf(Matching(dirs, ids[i])[0])
  {
    assert dirs[..|dirs|] == dirs;
  }

  /** A group bound from the only match of a short id carries an id starting with it and a listed name. */
  lemma SelectedGroupsMatch(ids: seq<string>, dirs: seq<string>, groups: seq<DeletionGroup>)
    requires |groups| == |ids|
    requires forall i :: 0 <= i < |ids| ==> |Matching(dirs, ids[i])| == 1 && groups[i] == GroupOf(Matching(dirs, ids[i])[0])
    ensures forall i :: 0 <= i < |ids| ==>
              ids[i] <= groups[i].id && groups[i].startingDir in dirs && groups[i].id == IdPart(groups[i].startingDir)
  {
    forall i | 0 <= i < |ids|
      ensures ids[i] <= groups[i].id && groups[i].startingDir in dirs && groups[i].id == IdPart(groups[i].startingDir)
    {
      MatchingContents(dirs, ids[i]);
    }
  }

  lemma MatchingStep(dirs: seq<string>, d: nat, shortId: string)
    requires d < |dirs|
    ensures Matching(dirs[..d + 1], shortId)
         == Matching(dirs[..d], shortId) + (if Matches(dirs[d], shortId) then [dirs[d]] else [])
  {
    assert dirs[..d + 1][..d] == dirs[..d];
  }

  lemma CountBoundNone(n: nat)
    ensures CountBound(seq(n, _ => None)) == 0
  {
    if n > 0 {
      var s: seq<Option<DeletionGroup>> := seq(n, _ => None);
      assert s[..n - 1] == seq(n - 1, _ => None);
      CountBoundNone(n - 1);
    }
  }

  // ---------------------------------------------------------------------
  // The resolution exactly as cmd/common.go writes it
  // ---------------------------------------------------------------------

  /** The zero `DeletionGroup` that `make` fills the result with; an empty `id` reads as "unbound". */
  const Unbound := DeletionGroup("", "")

  /** The inner loop over `ids` for one directory name, from position `idx`. */
  function ScanIds(ids: seq<string>, idx: nat, dirName: string, groups: seq<DeletionGroup>, found: nat)
    : (r: Result<(seq<DeletionGroup>, nat), SelectError>)
    requires idx <= |ids| == |groups|
    ensures r.Ok? ==> |r.value.0| == |ids|
    ensures r.Err? ==> r.error.Ambiguous? && r.error.shortId in ids
    decreases |ids| - idx
  {
    if idx == |ids| then Ok((groups, found))
    else if ids[idx] <= IdPart(dirName) then
      if groups[idx].id != "" then Err(Ambiguous(ids[idx]))
      else ScanIds(ids, idx + 1, dirName, groups[idx := GroupOf(dirName)], found + 1)
    else ScanIds(ids, idx + 1, dirName, groups, found)
  }

  /** The outer loop over the trash listing. */
  function ScanDirs(ids: seq<string>, dirs: seq<string>, groups: seq<DeletionGroup>, found: nat)
    : (r: Result<(seq<DeletionGroup>, nat), SelectError>)
    requires |groups| == |ids|
    ensures r.Ok? ==> |r.value.0| == |ids|
    ensures r.Err? ==> r.error.Ambiguous? && r.error.shortId in ids
  {
    if |dirs| == 0 then Ok((groups, found))
    else match ScanIds(ids, 0, dirs[0], groups, found)
      case Err(e) => Err(e)
      case Ok((g, f)) => ScanDirs(ids, dirs[1..], g, f)
  }

  /** The first short id whose slot still reads as unbound. */
  function FirstUnbound(ids: seq<string>, groups: seq<DeletionGroup>): (r: Option<string>)
    requires |groups| == |ids|
    ensures r.Some? ==> exists i :: 0 <= i < |ids| && groups[i].id == "" && ids[i] == r.value
    ensures r.None? ==> forall i :: 0 <= i < |ids| ==> groups[i].id != ""
  {
    if |ids| == 0 then None
    else if groups[0].id == "" then Some(ids[0])
    else FirstUnbound(ids[1..], groups[1..])
  }

  /** `getSelectedDeletionGroups` as written, with `delGroups[idx].id != ""` standing for "bound". */
  function SelectAsWritten(ids: seq<string>, dirs: seq<string>): (r: Result<seq<DeletionGroup>, SelectError>)
    ensures r.Ok? ==> |r.value| == |ids|
    ensures r.Err? ==> r.error.shortId in ids
  {
    match ScanDirs(ids, dirs, seq(|ids|, _ => Unbound), 0)
    case Err(e) => Err(e)
    case Ok((groups, found)) =>
      if found != |ids| then
        match FirstUnbound(ids, groups)
        case Some(s) => Err(NotFound(s))
        case None => Ok(groups)
      else Ok(groups)
  }

  /** The slots the as-written result stands for: an empty `id` reads as unbound. */
  function AsSlots(groups: seq<DeletionGroup>): seq<Option<DeletionGroup>>
  {
    seq(|groups|, i requires 0 <= i < |groups| => if groups[i].id == "" then None else Some(groups[i]))
  }

  /** No short id is empty, so a group bound from a match always has a non-empty id. */
  predicate NoEmptyShortId(ids: seq<string>) {
    forall i :: 0 <= i < |ids| ==> ids[i] != ""
  }

  /** The state of the as-written inner loop before short id `idx`, read as the corrected scan's slots. */
  predicate ScanIdsState(ids: seq<string>, dirs: seq<string>, d: nat, idx: nat, groups: seq<DeletionGroup>, found: nat)
  {
    NoEmptyShortId(ids) && d < |dirs| && idx <= |ids| == |groups| &&
    AgreeRange(AsSlots(groups), ids, dirs[..d + 1], 0, idx) &&
    AgreeRange(AsSlots(groups), ids, dirs[..d], idx, |ids|) &&
    found == CountBound(AsSlots(groups))
  }

  /** A matching short id whose slot reads as unbound is bound, and the state moves on. */
  lemma ScanIdsBind(ids: seq<string>, dirs: seq<string>, d: nat, idx: nat, groups: seq<DeletionGroup>, found: nat)
    requires ScanIdsState(ids, dirs, d, idx, groups, found) && idx < |ids|
    requires ids[idx] <= IdPart(dirs[d]) && groups[idx].id == ""
    ensures ScanIdsState(ids, dirs, d, idx + 1, groups[idx := GroupOf(dirs[d])], found + 1)
  {
    var slots, g := AsSlots(groups), GroupOf(dirs[d]);
    SlotStep(slots[idx], ids[idx], dirs, d);
    AsSlotsBind(groups, idx, g);
    CountBoundBind(slots, idx, g);
    AgreeAdvance(slots, ids, dirs[..d], dirs[..d + 1], idx, Some(g));
  }

  /** A short id the entry does not match keeps its slot, and the state moves on. */
  lemma ScanIdsSkip(ids: seq<string>, dirs: seq<string>, d: nat, idx: nat, groups: seq<DeletionGroup>, found: nat)
    requires ScanIdsState(ids, dirs, d, idx, groups, found) && idx < |ids|
    requires !(ids[idx] <= IdPart(dirs[d]))
    ensures ScanIdsState(ids, dirs, d, idx + 1, groups, found)
  {
    var slots := AsSlots(groups);
    SlotStep(slots[idx], ids[idx], dirs, d);
    AgreeAdvance(slots, ids, dirs[..d], dirs[..d + 1], idx, slots[idx]);
    assert slots[idx := slots[idx]] == slots;
  }

  /** A matching short id whose slot is already bound has two matches. */
  lemma ScanIdsClash(ids: seq<string>, dirs: seq<string>, d: nat, idx: nat, groups: seq<DeletionGroup>, found: nat)
    requires ScanIdsState(ids, dirs, d, idx, groups, found) && idx < |ids|
    requires ids[idx] <= IdPart(dirs[d]) && groups[idx].id != ""
    ensures |Matching(dirs[..d + 1], ids[idx])| >= 2
  {
    SlotStep(AsSlots(groups)[idx], ids[idx], dirs, d);
  }

  /** The inner loop either aborted on a short id with two matches so far, or left slots the corrected scan agrees with. */
  predicate ScanIdsOutcome(ids: seq<string>, dirs: seq<string>, d: nat, r: Result<(seq<DeletionGroup>, nat), SelectError>)
    requires d < |dirs|
  {
    (r.Err? ==> |Matching(dirs[..d + 1], r.error.shortId)| >= 2) &&
    (r.Ok? ==> Scanned(ids, dirs, d + 1, AsSlots(r.value.0)) && r.value.1 == CountBound(AsSlots(r.value.0)))
  }

  /**
   * With no empty short id, the as-written inner loop for the entry `dirs[d]`
   * keeps the same slots as the corrected scan, or aborts on a short id that
   * has two matches among the entries up to `dirs[d]`.
   */
  lemma {:induction false} ScanIdsAgrees(ids: seq<string>, dirs: seq<string>, d: nat, idx: nat, groups: seq<DeletionGroup>, found: nat)
    requires ScanIdsState(ids, dirs, d, idx, groups, found)
    ensures ScanIdsOutcome(ids, dirs, d, ScanIds(ids, idx, dirs[d], groups, found))
    decreases |ids| - idx, 1
  {
    if idx == |ids| {
      ScannedRanges(ids, dirs, d + 1, AsSlots(groups));
    } else if !(ids[idx] <= IdPart(dirs[d])) {
      ScanIdsAgreesSkip(ids, dirs, d, idx, groups, found);
    } else if groups[idx].id == "" {
      ScanIdsAgreesBind(ids, dirs, d, idx, groups, found);
    } else {
      ScanIdsClash(ids, dirs, d, idx, groups, found);
    }
  }

  /** The inner loop past a short id the entry does not match. */
  lemma {:induction false} ScanIdsAgreesSkip(ids: seq<string>, dirs: seq<string>, d: nat, idx: nat, groups: seq<DeletionGroup>, found: nat)
    requires ScanIdsState(ids, dirs, d, idx, groups, found) && idx < |ids|
    requires !(ids[idx] <= IdPart(dirs[d]))
    ensures ScanIdsOutcome(ids, dirs, d, ScanIds(ids, idx, dirs[d], groups, found))
    decreases |ids| - idx, 0
  {
    ScanIdsSkip(ids, dirs, d, idx, groups, found);
    ScanIdsAgrees(ids, dirs, d, idx + 1, groups, found);
  }

  /** The inner loop past a short id whose slot it binds to the entry. */
  lemma {:induction false} ScanIdsAgreesBind(ids: seq<string>, dirs: seq<string>, d: nat, idx: nat, groups: seq<DeletionGroup>, found: nat)
    requires ScanIdsState(ids, dirs, d, idx, groups, found) && idx < |ids|
    requires ids[idx] <= IdPart(dirs[d]) && groups[idx].id == ""
    ensures ScanIdsOutcome(ids, dirs, d, ScanIds(ids, idx, dirs[d], groups, found))
    decreases |ids| - idx, 0
  {
    var groups' := groups[idx := GroupOf(dirs[d])];
    ScanIdsBind(ids, dirs, d, idx, groups, found);
    ScanIdsAgrees(ids, dirs, d, idx + 1, groups', found + 1);
    ScanIdsBindStep(ids, idx, dirs[d], groups, found);
  }

  /** One bind step of the inner loop. */
  lemma ScanIdsBindStep(ids: seq<string>, idx: nat, dirName: string, groups: seq<DeletionGroup>, found: nat)
    requires idx < |ids| == |groups| && ids[idx] <= IdPart(dirName) && groups[idx].id == ""
    ensures ScanIds(ids, idx, dirName, groups, found) == ScanIds(ids, idx + 1, dirName, groups[idx := GroupOf(dirName)], found + 1)
  {
  }

  /** Binding a slot to a group with a non-empty id binds the slot it stands for. */
  lemma AsSlotsBind(groups: seq<DeletionGroup>, idx: nat, g: DeletionGroup)
    requires idx < |groups| && g.id != ""
    ensures AsSlots(groups[idx := g]) == AsSlots(groups)[idx := Some(g)]
  {
  }

  /** With no empty short id, the as-written outer loop from entry `d` on agrees with the corrected scan. */
  lemma {:induction false} ScanDirsAgrees(ids: seq<string>, dirs: seq<string>, d: nat, groups: seq<DeletionGroup>, found: nat)
    requires NoEmptyShortId(ids) && d <= |dirs| && |groups| == |ids|
    requires Scanned(ids, dirs, d, AsSlots(groups)) && found == CountBound(AsSlots(groups))
    ensures var r := ScanDirs(ids, dirs[d..], groups, found);
            (r.Err? ==> r.error.Ambiguous? && |Matching(dirs, r.error.shortId)| >= 2) &&
            (r.Ok? ==> Scanned(ids, dirs, |dirs|, AsSlots(r.value.0)) && r.value.1 == CountBound(AsSlots(r.value.0)))
    decreases |dirs| - d
  {
    if d < |dirs| {
      assert dirs[d..][0] == dirs[d] && dirs[d..][1..] == dirs[d + 1..];
      ScannedRanges(ids, dirs, d, AsSlots(groups));
      assert ScanIdsState(ids, dirs, d, 0, groups, found);
      ScanIdsAgrees(ids, dirs, d, 0, groups, found);
      match ScanIds(ids, 0, dirs[d], groups, found)
      case Err(e) =>
        MatchingPrefix(dirs, d + 1, e.shortId);
      case Ok((g, f)) =>
        ScanDirsAgrees(ids, dirs, d + 1, g, f);
    } else {
      assert dirs[d..] == [];
    }
  }

  /**
   * The defect is the only difference: when no short id is empty, the
   * as-written resolution completes exactly when every short id has one
   * match, returns the groups of those matches, and reports an ambiguous or
   * unknown id exactly as the corrected one does.
   */
  lemma SelectAsWrittenAgrees(ids: seq<string>, dirs: seq<string>)
    requires NoEmptyShortId(ids)
    ensures var r := SelectAsWritten(ids, dirs);
            (r.Ok? <==> forall i :: 0 <= i < |ids| ==> |Matching(dirs, ids[i])| == 1) &&
            (r.Ok? ==> forall i :: 0 <= i < |ids| ==> r.value[i] == GroupOf(Matching(dirs, ids[i])[0])) &&
            (r.Err? && r.error.Ambiguous? ==> |Matching(dirs, r.error.shortId)| >= 2) &&
            (r.Err? && r.error.NotFound? ==> |Matching(dirs, r.error.shortId)| == 0) &&
            ((exists i :: 0 <= i < |ids| && |Matching(dirs, ids[i])| >= 2) ==> r.Err? && r.error.Ambiguous?)
  {
    var g0: seq<DeletionGroup> := seq(|ids|, _ => Unbound);
    assert AsSlots(g0) == seq(|ids|, _ => None);
    CountBoundNone(|ids|);
    assert Scanned(ids, dirs, 0, AsSlots(g0));
    assert dirs[0..] == dirs;
    ScanDirsAgrees(ids, dirs, 0, g0, 0);
    match ScanDirs(ids, dirs, g0, 0)
    case Err(e) =>
    case Ok((groups, found)) =>
      var slots := AsSlots(groups);
      ScannedComplete(ids, dirs, slots);
      CountBoundFull(slots);
  }

  /** The first directory "t-" binds slot 0 for the empty short id; "x" stays unbound. */
  lemma ScanFirstDash()
    ensures ScanIds(["", "x"], 0, "t-", seq(2, _ => Unbound), 0) == Ok(([GroupOf("t-"), Unbound], 1))
  {
    var ids, g0, g1 := ["", "x"], seq(2, _ => Unbound), [GroupOf("t-"), Unbound];
    assert IdPart("t-") == "";
    assert g0[0 := GroupOf("t-")] == g1;
    assert ScanIds(ids, 2, "t-", g1, 1) == Ok((g1, 1));
    assert ScanIds(ids, 1, "t-", g1, 1) == Ok((g1, 1));
  }

  /** The second directory "u-" rebinds slot 0, since `GroupOf("t-").id` is empty. */
  lemma ScanSecondDash()
    ensures ScanIds(["", "x"], 0, "u-", [GroupOf("t-"), Unbound], 1) == Ok(([GroupOf("u-"), Unbound], 2))
  {
    var ids, g1, g2 := ["", "x"], [GroupOf("t-"), Unbound], [GroupOf("u-"), Unbound];
    assert IdPart("t-") == "" && IdPart("u-") == "";
    assert g1[0 := GroupOf("u-")] == g2;
    assert ScanIds(ids, 2, "u-", g2, 2) == Ok((g2, 2));
    assert ScanIds(ids, 1, "u-", g2, 2) == Ok((g2, 2));
  }

  /**
   * Two trash directories whose names end in a dash (their id part is empty)
   * both match the short id "" without tripping the ambiguity check, so
   * `found` reaches 2 and the call returns normally although "x" matches nothing.
   */
  lemma SelectAsWrittenMissesUnknownId()
    ensures |Matching(["t-", "u-"], "x")| == 0
    ensures SelectAsWritten(["", "x"], ["t-", "u-"]) == Ok([GroupOf("u-"), Unbound])
  {
    var ids, dirs := ["", "x"], ["t-", "u-"];
    assert IdPart("t-") == "" && IdPart("u-") == "";
    assert !Matches("t-", "x") && !Matches("u-", "x");
    assert Matching(["t-"], "x") == [] && dirs[..1] == ["t-"];
    var g0 := seq(2, _ => Unbound);
    var g1 := [GroupOf("t-"), Unbound];
    var g2 := [GroupOf("u-"), Unbound];
    ScanFirstDash();
    ScanSecondDash();
    assert dirs[1..] == ["u-"] && dirs[1..][1..] == [];
    assert ScanDirs(ids, [], g2, 2) == Ok((g2, 2));
    assert ScanDirs(ids, ["u-"], g1, 1) == Ok((g2, 2));
    assert ScanDirs(ids, dirs, g0, 0) == Ok((g2, 2));
  }
}

=== FILE: deletion_ids.dfy ===
/**
 * Deletion-group identifiers: the container name `<time>-<id>` built by
 * `genDeletionInstanceName` (cmd/rm.go) and the id recovered from a
 * container name as the part after its last dash (cmd/common.go, cmd/flush.go).
 */
module DeletionIds {

  /** Go's int64, the type of `UnixNano()` and of `strconv.FormatInt`'s argument. */
  type Int64 = x: int | -0x8000_0000_0000_0000 <= x < 0x8000_0000_0000_0000

  /** A digit of `strconv.FormatInt(_, 36)`: `0`-`9` then lower-case `a`-`z`. */
  predicate IsBase36Char(c: char) {
    '0' <= c <= '9' || 'a' <= c <= 'z'
  }

  predicate AllBase36(s: string) {
    forall i :: 0 <= i < |s| ==> IsBase36Char(s[i])
  }

  function DigitValue(c: char): (d: nat)
    requires IsBase36Char(c)
    ensures d < 36
  {
    if c <= '9' then c as int - '0' as int else c as int - 'a' as int + 10
  }

  function DigitChar(d: nat): (c: char)
    requires d < 36
    ensures IsBase36Char(c) && DigitValue(c) == d
  {
    if d < 10 then ('0' as int + d) as char else ('a' as int + d - 10) as char
  }

  /** Base-36 digits of a non-negative number, most significant first, no leading zero. */
  function FormatNat(n: nat): (s: string)
    ensures |s| > 0 && AllBase36(s)
    ensures s[0] == '0' <==> n == 0
    decreases n
  {
    if n < 36 then [DigitChar(n)] else FormatNat(n / 36) + [DigitChar(n % 36)]
  }

  /** `strconv.FormatInt(n, 36)`: a minus sign in front of the magnitude's digits when negative. */
  function FormatInt(n: int): (s: string)
    ensures n >= 0 ==> AllBase36(s)
    ensures n < 0 ==> |s| > 1 && s[0] == '-' && AllBase36(s[1..])
  {
    if n < 0 then "-" + FormatNat(-n) else FormatNat(n)
  }

  /** Reads base-36 digits back, most significant first; the inverse of FormatNat. */
  function ParseNat(s: string): nat
    requires AllBase36(s)
  {
    if |s| == 0 then 0 else ParseNat(s[..|s| - 1]) * 36 + DigitValue(s[|s| - 1])
  }

  /** Character-level reversal, as the comment above `genDeletionInstanceName` describes `util.Reverse`. */
  function Reverse(s: string): (r: string)
    ensures |r| == |s|
    ensures forall i :: 0 <= i < |s| ==> r[i] == s[|s| - 1 - i]
  {
    if |s| == 0 then [] else Reverse(s[1..]) + [s[0]]
  }

  /** The id part of a new deletion group: the reversed base-36 nanosecond time. */
  function NewId(nanoTime: Int64): string
  {
    Reverse(FormatInt(nanoTime))
  }

  /** The container name: the second-precision timestamp, a dash, then the id. */
  function InstanceName(timestamp: string, nanoTime: Int64): string
  {
    timestamp + "-" + NewId(nanoTime)
  }

  /** `strings.LastIndex(s, string(c))`: the last position of `c`, or -1 when absent. */
  function LastIndex(s: string, c: char): (k: int)
    ensures -1 <= k < |s|
    ensures k >= 0 ==> s[k] == c
    ensures forall j :: k < j < |s| ==> s[j] != c
  {
    if |s| == 0 then -1
    else if s[|s| - 1] == c then |s| - 1
    else LastIndex(s[..|s| - 1], c)
  }

  /** The id stored in a container name: everything after its last dash (all of it when there is none). */
  function IdPart(dirName: string): string
  {
    dirName[LastIndex(dirName, '-') + 1..]
  }

  // ---------------------------------------------------------------------
  // Properties
  // ---------------------------------------------------------------------

  /** The id part is the longest dash-free suffix of the name. */
  lemma IdPartShape(dirName: string)
    ensures '-' !in IdPart(dirName)
    ensures |IdPart(dirName)| <= |dirName| && dirName[|dirName| - |IdPart(dirName)|..] == IdPart(dirName)
    ensures |IdPart(dirName)| < |dirName| ==> dirName[|dirName| - |IdPart(dirName)| - 1] == '-'
  {
  }

  lemma {:induction false} ParseFormatNat(n: nat)
    ensures ParseNat(FormatNat(n)) == n
    decreases n
  {
    if n >= 36 {
      var s := FormatNat(n);
      assert s[..|s| - 1] == FormatNat(n / 36);
      ParseFormatNat(n / 36);
    }
  }

  lemma {:induction false} ReverseReverse(s: string)
    ensures Reverse(Reverse(s)) == s
  {
    var r := Reverse(Reverse(s));
    assert |r| == |s|;
    forall i | 0 <= i < |s| ensures r[i] == s[i] {
      assert r[i] == Reverse(s)[|s| - 1 - i];
    }
  }

  /** For a non-negative time the id is made of base-36 digits only, so it holds no dash. */
  lemma NewIdAlphabet(nanoTime: Int64)
    requires nanoTime >= 0
    ensures AllBase36(NewId(nanoTime)) && '-' !in NewId(nanoTime)
  {
    var f := FormatInt(nanoTime);
    var id := NewId(nanoTime);
    forall i | 0 <= i < |id| ensures IsBase36Char(id[i]) {
      assert id[i] == f[|f| - 1 - i];
    }
  }

  /** Round trip: reversing the id and reading it as base 36 gives the nanosecond time back. */
  lemma NewIdRoundTrip(nanoTime: Int64)
    requires nanoTime >= 0
    ensures AllBase36(Reverse(NewId(nanoTime)))
    ensures ParseNat(Reverse(NewId(nanoTime))) == nanoTime
  {
    ReverseReverse(FormatInt(nanoTime));
    ParseFormatNat(nanoTime);
  }

  /** Distinct non-negative times give distinct ids. */
  lemma NewIdInjective(a: Int64, b: Int64)
    requires a >= 0 && b >= 0 && a != b
    ensures NewId(a) != NewId(b)
  {
    NewIdRoundTrip(a);
    NewIdRoundTrip(b);
  }

  /** The suffix after the last dash of `<timestamp>-<id>` is `id` whenever `id` has no dash. */
  lemma {:induction false} IdPartOfName(timestamp: string, id: string)
    requires '-' !in id
    ensures IdPart(timestamp + "-" + id) == id
  {
    var s := timestamp + "-" + id;
    var k := LastIndex(s, '-');
    assert s[|timestamp|] == '-';
    assert forall j :: |timestamp| < j < |s| ==> s[j] == id[j - |timestamp| - 1];
    assert k == |timestamp|;
    assert s[k + 1..] == id;
  }

  /** The registry recovers exactly the generated id, and through it the time, from the container name. */
  lemma InstanceNameRoundTrip(timestamp: string, nanoTime: Int64)
    requires nanoTime >= 0
    ensures IdPart(InstanceName(timestamp, nanoTime)) == NewId(nanoTime)
    ensures ParseNat(Reverse(IdPart(InstanceName(timestamp, nanoTime)))) == nanoTime
  {
    NewIdAlphabet(nanoTime);
    IdPartOfName(timestamp, NewId(nanoTime));
    NewIdRoundTrip(nanoTime);
  }

  /** A time before the epoch puts the minus sign last in the id, so the recovered id is empty. */
  lemma NegativeTimeLosesId(timestamp: string, nanoTime: Int64)
    requires nanoTime < 0
    ensures IdPart(InstanceName(timestamp, nanoTime)) == ""
  {
    var name := InstanceName(timestamp, nanoTime);
    var f := FormatInt(nanoTime);
    assert name[|name| - 1] == NewId(nanoTime)[|f| - 1] == f[0] == '-';
  }
}

=== FILE: file_tree.dfy ===
/**
 * An abstract, finite file system: the Go calls the commands make (`os.Stat`,
 * `ioutil.ReadDir`, `os.MkdirAll`, `os.Rename`, `os.RemoveAll`) as total
 * functions over a directory tree. Paths are sequences of entry names from the
 * root; `[]` is `/`.
 */
module FileTree {
  import opened Results

  /** Permission bits of a node, 0o000 to 0o777. */
  type Perm = p: nat | p < 512

  /** The mode `os.MkdirAll(_, 0700)` gives every directory it creates. */
  const CreatedDirPerm: Perm := 448

  /** A directory keeps its entries in the order `ioutil.ReadDir` lists them. */
  datatype Node = File(data: string) | Dir(perm: Perm, entries: seq<Entry>)
  datatype Entry = Entry(name: string, node: Node)

  type Path = seq<string>

  /** The errno values the modelled calls can fail with. */
  datatype FsError =
    | NoEntry           // ENOENT
    | NotADirectory     // ENOTDIR
    | Exists            // EEXIST: os.Rename onto an existing directory
    | Busy              // EBUSY: renaming `/`
    | Invalid           // EINVAL: moving a directory below itself
    | PermissionDenied  // EACCES

  // ---------------------------------------------------------------------
  // Permission strings
  // ---------------------------------------------------------------------

  function Bit(on: bool, c: char): char {
    if on then c else '-'
  }

  /** `os.FileMode(p).String()` for permission bits only, e.g. `-rwxr-x---`. */
  function ModeString(p: Perm): (s: string)
    ensures |s| == 10 && s[0] == '-'
  {
    ['-',
     Bit((p / 256) % 2 == 1, 'r'), Bit((p / 128) % 2 == 1, 'w'), Bit((p / 64) % 2 == 1, 'x'),
     Bit((p / 32) % 2 == 1, 'r'), Bit((p / 16) % 2 == 1, 'w'), Bit((p / 8) % 2 == 1, 'x'),
     Bit((p / 4) % 2 == 1, 'r'), Bit((p / 2) % 2 == 1, 'w'), Bit(p % 2 == 1, 'x')]
  }

  /** The check `Perm().String()[1:4] == "rwx"`: read, write and search for the owner. */
  predicate OwnerRwx(p: Perm) {
    ModeString(p)[1..4] == "rwx"
  }

  /** The owner read bit, which `ReadDir` needs. */
  predicate OwnerCanRead(p: Perm) {
    (p / 256) % 2 == 1
  }

  /** The three-character check passes exactly when all three owner bits (0o700) are set. */
  lemma OwnerRwxBits(p: Perm)
    ensures OwnerRwx(p) <==> p >= 448
  {
    var s := ModeString(p);
    assert s[1..4] == [s[1], s[2], s[3]];
  }

  // ---------------------------------------------------------------------
  // Entry lists
  // ---------------------------------------------------------------------

  /** Position of the first entry called `name`, or -1. */
  function IndexOf(es: seq<Entry>, name: string): (k: int)
    ensures -1 <= k < |es|
    ensures k >= 0 ==> es[k].name == name && forall j :: 0 <= j < k ==> es[j].name != name
    ensures k < 0 ==> forall j :: 0 <= j < |es| ==> es[j].name != name
  {
    if |es| == 0 then -1
    else if es[0].name == name then 0
    else
      var k := IndexOf(es[1..], name);
      if k < 0 then -1 else k + 1
  }

  function Child(es: seq<Entry>, name: string): Option<Node> {
    var k := IndexOf(es, name);
    if k < 0 then None else Some(es[k].node)
  }

  /** Byte-wise string order, the order `ioutil.ReadDir` sorts names in. */
  predicate Less(a: string, b: string) {
    if |b| == 0 then false
    else if |a| == 0 then true
    else if a[0] != b[0] then a[0] < b[0]
    else Less(a[1..], b[1..])
  }

  /** Where `name` goes among entries: before the first entry whose name sorts after it. */
  function InsertPos(es: seq<Entry>, name: string): (i: nat)
    ensures i <= |es|
  {
    if |es| == 0 || Less(name, es[0].name) then 0 else 1 + InsertPos(es[1..], name)
  }

  function Insert(es: seq<Entry>, name: string, x: Node): seq<Entry> {
    var i := InsertPos(es, name);
    es[..i] + [Entry(name, x)] + es[i..]
  }

  lemma IndexOfIs(es: seq<Entry>, name: string, k: int)
    requires -1 <= k < |es|
    requires k >= 0 ==> es[k].name == name
    requires forall j :: 0 <= j < |es| && (k < 0 || j < k) ==> es[j].name != name
    ensures IndexOf(es, name) == k
  {
  }

  lemma ChildCons(e: Entry, rest: seq<Entry>, name: string)
    ensures Child([e] + rest, name) == if e.name == name then Some(e.node) else Child(rest, name)
  {
    var es := [e] + rest;
    assert es[1..] == rest;
  }

  /** Replacing the entry found for `name` changes what `name` maps to and nothing else. */
  lemma ReplaceChild(es: seq<Entry>, name: string, x: Node, other: string)
    requires IndexOf(es, name) >= 0
    ensures Child(es[IndexOf(es, name) := Entry(name, x)], name) == Some(x)
    ensures other != name ==> Child(es[IndexOf(es, name) := Entry(name, x)], other) == Child(es, other)
  {
    var k := IndexOf(es, name);
    var r := es[k := Entry(name, x)];
    IndexOfIs(r, name, k);
    if other != name {
      IndexOfIs(r, other, IndexOf(es, other));
    }
  }

  /** Inserting an entry for an absent `name` adds it and keeps every other name's child. */
  lemma {:induction false} InsertChild(es: seq<Entry>, name: string, x: Node, other: string)
    requires IndexOf(es, name) < 0
    ensures Child(Insert(es, name, x), other) == if other == name then Some(x) else Child(es, other)
    decreases |es|
  {
    var r := Insert(es, name, x);
    if InsertPos(es, name) == 0 {
      assert r == [Entry(name, x)] + es;
      ChildCons(Entry(name, x), es, other);
    } else {
      var i := InsertPos(es, name);
      assert es[..i] == [es[0]] + es[1..][..i - 1] && es[i..] == es[1..][i - 1..];
      assert r == [es[0]] + Insert(es[1..], name, x);
      assert es == [es[0]] + es[1..];
      ChildCons(es[0], es[1..], other);
      ChildCons(es[0], Insert(es[1..], name, x), other);
      InsertChild(es[1..], name, x, other);
    }
  }

  /** Entries with `name` bound to `x`: the existing entry is replaced in place, else one is inserted. */
  function Upsert(es: seq<Entry>, name: string, x: Node): (r: seq<Entry>)
    ensures Child(r, name) == Some(x)
    ensures forall other :: other != name ==> Child(r, other) == Child(es, other)
  {
    var k := IndexOf(es, name);
    if k >= 0 then
      var r := es[k := Entry(name, x)];
      ReplaceChild(es, name, x, name);
      assert forall other :: other != name ==> Child(r, other) == Child(es, other) by {
        forall other | other != name ensures Child(r, other) == Child(es, other) {
          ReplaceChild(es, name, x, other);
        }
      }
      r
    else
      var r := Insert(es, name, x);
      InsertChild(es, name, x, name);
      assert forall other :: other != name ==> Child(r, other) == Child(es, other) by {
        forall other | other != name ensures Child(r, other) == Child(es, other) {
          InsertChild(es, name, x, other);
        }
      }
      r
  }

  /** Entries with every entry called `name` dropped. */
  function Without(es: seq<Entry>, name: string): (r: seq<Entry>)
    ensures Child(r, name) == None
    ensures forall other :: other != name ==> Child(r, other) == Child(es, other)
  {
    if |es| == 0 then []
    else
      ChildCons(es[0], es[1..], name);
      assert es == [es[0]] + es[1..];
      assert forall other :: Child(es, other) == Child([es[0]] + es[1..], other);
      var rest := Without(es[1..], name);
      if es[0].name == name then rest
      else
        assert forall other :: Child([es[0]] + rest, other) == if es[0].name == other then Some(es[0].node) else Child(rest, other) by {
          forall other { ChildCons(es[0], rest, other); }
        }
        assert forall other :: Child([es[0]] + es[1..], other) == if es[0].name == other then Some(es[0].node) else Child(es[1..], other) by {
          forall other { ChildCons(es[0], es[1..], other); }
        }
        [es[0]] + rest
  }

  // ---------------------------------------------------------------------
  // Lookup and Stat
  // ---------------------------------------------------------------------

  function Lookup(n: Node, p: Path): Option<Node>
    decreases |p|
  {
    if |p| == 0 then Some(n)
    else match n
      case File(_) => None
      case Dir(_, es) =>
        match Child(es, p[0])
        case None => None
        case Some(c) => Lookup(c, p[1..])
  }

  predicate IsDirAt(n: Node, p: Path) {
    Lookup(n, p).Some? && Lookup(n, p).value.Dir?
  }

  predicate IsFileAt(n: Node, p: Path) {
    Lookup(n, p).Some? && Lookup(n, p).value.File?
  }

  function Parent(p: Path): Path
    requires |p| > 0
  {
    p[..|p| - 1]
  }

  /** What `os.Stat` reports. `StatNotDir` is the ENOTDIR of a path running through a file. */
  datatype StatResult = StatDir(perm: Perm) | StatFile | StatMissing | StatNotDir

  function Stat(n: Node, p: Path): (r: StatResult)
    ensures r.StatDir? <==> IsDirAt(n, p)
    ensures r.StatDir? ==> Lookup(n, p).value.perm == r.perm
    ensures r.StatFile? <==> IsFileAt(n, p)
    ensures r.StatNotDir? <==> exists k :: 0 <= k < |p| && IsFileAt(n, p[..k])
    decreases |p|
  {
    match n
    case File(_) =>
      assert |p| > 0 ==> IsFileAt(n, p[..0]);
      if |p| == 0 then StatFile else StatNotDir
    case Dir(perm, es) =>
      if |p| == 0 then StatDir(perm)
      else match Child(es, p[0])
        case None =>
          assert forall k :: 0 < k <= |p| ==> Lookup(n, p[..k]).None? by {
            forall k | 0 < k <= |p| ensures Lookup(n, p[..k]).None? {
              assert p[..k][0] == p[0];
            }
          }
          StatMissing
        case Some(c) =>
          var r := Stat(c, p[1..]);
          assert forall k :: 0 < k <= |p| ==> Lookup(n, p[..k]) == Lookup(c, p[1..][..k - 1]) by {
            forall k | 0 < k <= |p| ensures Lookup(n, p[..k]) == Lookup(c, p[1..][..k - 1]) {
              assert p[..k][0] == p[0] && p[..k][1..] == p[1..][..k - 1];
            }
          }
          assert p == p[..|p|];
          assert r.StatNotDir? ==> exists k :: 0 <= k < |p| && IsFileAt(n, p[..k]) by {
            if r.StatNotDir? {
              var k :| 0 <= k < |p[1..]| && IsFileAt(c, p[1..][..k]);
              assert IsFileAt(n, p[..k + 1]);
            }
          }
          r
  }

  /** `ioutil.ReadDir`: the entries of a directory the owner may read. */
  function ReadDir(n: Node, p: Path): (r: Result<seq<Entry>, FsError>)
    ensures r.Ok? <==> IsDirAt(n, p) && OwnerCanRead(Lookup(n, p).value.perm)
    ensures r.Ok? ==> r.value == Lookup(n, p).value.entries
  {
    match Lookup(n, p)
    case None => Err(NoEntry)
    case Some(File(_)) => Err(NotADirectory)
    case Some(Dir(perm, es)) => if OwnerCanRead(perm) then Ok(es) else Err(PermissionDenied)
  }

  function Names(es: seq<Entry>): (r: seq<string>)
    ensures |r| == |es| && forall i :: 0 <= i < |es| ==> r[i] == es[i].name
  {
    if |es| == 0 then [] else [es[0].name] + Names(es[1..])
  }

  // ---------------------------------------------------------------------
  // Updates
  // ---------------------------------------------------------------------

  /** Places `x` at `p`; the tree is unchanged when the parent of `p` is not a directory. */
  function PutAt(n: Node, p: Path, x: Node): Node
    decreases |p|
  {
    if |p| == 0 then x
    else match n
      case File(_) => n
      case Dir(perm, es) =>
        if |p| == 1 then Dir(perm, Upsert(es, p[0], x))
        else match Child(es, p[0])
          case None => n
          case Some(c) => Dir(perm, Upsert(es, p[0], PutAt(c, p[1..], x)))
  }

  /**
   * `os.RemoveAll`: drops the subtree at `p`; a missing path is no error.
   * The root itself cannot be removed, so removing `/` empties it.
   */
  function RemoveAt(n: Node, p: Path): Node
    decreases |p|
  {
    match n
    case File(_) => n
    case Dir(perm, es) =>
      if |p| == 0 then Dir(perm, [])
      else if |p| == 1 then Dir(perm, Without(es, p[0]))
      else match Child(es, p[0])
        case None => n
        case Some(c) => Dir(perm, Upsert(es, p[0], RemoveAt(c, p[1..])))
  }

  /** `os.MkdirAll(p, 0700)`: creates every missing directory on `p`; fails on a file along the way. */
  function MkdirAll(n: Node, p: Path): Result<Node, FsError>
    decreases |p|
  {
    match n
    case File(_) => Err(NotADirectory)
    case Dir(perm, es) =>
      if |p| == 0 then Ok(n)
      else
        var c := match Child(es, p[0]) case Some(c) => c case None => Dir(CreatedDirPerm, []);
        match MkdirAll(c, p[1..])
        case Err(e) => Err(e)
        case Ok(c') => Ok(Dir(perm, Upsert(es, p[0], c')))
  }

  /**
   * `os.Rename`. Go first looks at the new path and refuses any directory
   * there (EEXIST), empty or not, and even when it is the old path itself;
   * past that check the rules of rename(2) apply.
   */
  function Rename(n: Node, src: Path, dst: Path): Result<Node, FsError> {
    match Lookup(n, src)
    case None => Err(NoEntry)
    case Some(x) =>
      if IsDirAt(n, dst) then Err(Exists)
      else if |src| == 0 || |dst| == 0 then Err(Busy)
      else if src == dst then Ok(n)
      else if src <= dst then Err(Invalid)
      else if !IsDirAt(n, Parent(dst)) then Err(NoEntry)
      else if Lookup(n, dst).Some? && x.Dir? then Err(NotADirectory)
      else Ok(PutAt(RemoveAt(n, src), dst, x))
  }

  // ---------------------------------------------------------------------
  // How the updates change what Lookup sees
  // ---------------------------------------------------------------------

  /** Same presence and kind; a file is the very same file, a directory keeps its permission bits. */
  predicate SameShape(a: Option<Node>, b: Option<Node>) {
    match a
    case None => b.None?
    case Some(File(_)) => b == a
    case Some(Dir(perm, _)) => b.Some? && b.value.Dir? && b.value.perm == perm
  }

  lemma {:induction false} LookupAppend(n: Node, p: Path, q: Path)
    ensures Lookup(n, p + q) == match Lookup(n, p) case None => None case Some(m) => Lookup(m, q)
    decreases |p|
  {
    if |p| > 0 {
      assert (p + q)[0] == p[0] && (p + q)[1..] == p[1..] + q;
      match n
      case File(_) =>
      case Dir(_, es) =>
        match Child(es, p[0])
        case None =>
        case Some(c) => LookupAppend(c, p[1..], q);
    } else {
      assert p + q == q;
    }
  }

  /** Below an existing node every proper ancestor is a non-empty directory. */
  lemma AncestorIsNonEmptyDir(n: Node, a: Path, p: Path)
    requires a < p && Lookup(n, p).Some?
    ensures IsDirAt(n, a) && |Lookup(n, a).value.entries| > 0
  {
    assert p == a + p[|a|..];
    LookupAppend(n, a, p[|a|..]);
  }

  lemma PrefixFacts(p: Path, q: Path)
    requires |p| > 0 && |q| > 0 && p[0] == q[0]
    ensures p <= q <==> p[1..] <= q[1..]
    ensures q < p <==> q[1..] < p[1..]
    ensures p <= q ==> q[|p|..] == q[1..][|p| - 1..]
  {
    if p[1..] <= q[1..] {
      assert p == [p[0]] + p[1..] && q[..|p|] == [q[0]] + q[1..][..|p| - 1];
    }
  }

  lemma {:induction false} LookupPutAt(n: Node, p: Path, x: Node, q: Path)
    ensures |p| > 0 && IsDirAt(n, Parent(p)) && p <= q ==> Lookup(PutAt(n, p, x), q) == Lookup(x, q[|p|..])
    ensures !(p <= q) && !(q <= p) ==> Lookup(PutAt(n, p, x), q) == Lookup(n, q)
    ensures q < p ==> SameShape(Lookup(n, q), Lookup(PutAt(n, p, x), q))
    decreases |p|
  {
    if |p| == 0 || |q| == 0 || q[0] != p[0] {
      return;
    }
    PrefixFacts(p, q);
    match n
    case File(_) =>
    case Dir(perm, es) =>
      if |p| > 1 {
        assert Parent(p) == [p[0]] + Parent(p[1..]);
        match Child(es, p[0])
        case None =>
        case Some(c) =>
          LookupPutAt(c, p[1..], x, q[1..]);
      }
  }

  lemma {:induction false} LookupRemoveAt(n: Node, p: Path, q: Path)
    requires |p| > 0
    ensures p <= q ==> Lookup(RemoveAt(n, p), q) == None
    ensures !(p <= q) && !(q <= p) ==> Lookup(RemoveAt(n, p), q) == Lookup(n, q)
    ensures q < p ==> SameShape(Lookup(n, q), Lookup(RemoveAt(n, p), q))
    decreases |p|
  {
    if |q| == 0 || q[0] != p[0] {
      return;
    }
    PrefixFacts(p, q);
    match n
    case File(_) =>
    case Dir(perm, es) =>
      if |p| > 1 {
        match Child(es, p[0])
        case None =>
        case Some(c) =>
          LookupRemoveAt(c, p[1..], q[1..]);
      }
  }

  /** MkdirAll fails exactly when some prefix of the path (the path included) is a file. */
  lemma {:induction false} MkdirAllSucceeds(n: Node, p: Path)
    ensures MkdirAll(n, p).Ok? <==> forall k :: 0 <= k <= |p| ==> !IsFileAt(n, p[..k])
    decreases |p|
  {
    match n
    case File(_) =>
      assert IsFileAt(n, p[..0]);
    case Dir(perm, es) =>
      if |p| > 0 {
        var c := match Child(es, p[0]) case Some(c) => c case None => Dir(CreatedDirPerm, []);
        MkdirAllSucceeds(c, p[1..]);
        forall k | 0 < k <= |p|
          ensures IsFileAt(n, p[..k]) <==> IsFileAt(c, p[1..][..k - 1])
        {
          assert p[..k][0] == p[0] && p[..k][1..] == p[1..][..k - 1];
          if Child(es, p[0]).None? && k > 1 {
            assert Lookup(c, p[1..][..k - 1]).None?;
          }
        }
        assert !IsFileAt(n, p[..0]);
        if MkdirAll(n, p).Ok? {
          forall k | 0 <= k <= |p| ensures !IsFileAt(n, p[..k]) {
            if k > 0 { assert !IsFileAt(c, p[1..][..k - 1]); }
          }
        } else {
          var j :| 0 <= j <= |p[1..]| && IsFileAt(c, p[1..][..j]);
          assert IsFileAt(n, p[..j + 1]);
        }
      }
  }

  /** MkdirAll of a directory that already exists changes nothing. */
  lemma {:induction false} MkdirAllExisting(n: Node, p: Path)
    requires IsDirAt(n, p)
    ensures MkdirAll(n, p) == Ok(n)
    decreases |p|
  {
    if |p| > 0 {
      var es := n.entries;
      var k := IndexOf(es, p[0]);
      MkdirAllExisting(es[k].node, p[1..]);
      assert es[k := Entry(p[0], es[k].node)] == es;
    }
  }

  lemma {:induction false} LookupMkdirAll(n: Node, p: Path, q: Path)
    requires MkdirAll(n, p).Ok?
    ensures q <= p ==> IsDirAt(MkdirAll(n, p).value, q)
    ensures q <= p && Lookup(n, q).Some? ==> SameShape(Lookup(n, q), Lookup(MkdirAll(n, p).value, q))
    ensures Lookup(n, p).None? ==> Lookup(MkdirAll(n, p).value, p) == Some(Dir(CreatedDirPerm, []))
    ensures !(q <= p) ==> Lookup(MkdirAll(n, p).value, q) == Lookup(n, q)
    decreases |p|
  {
    var m := MkdirAll(n, p).value;
    if |p| == 0 {
      return;
    }
    var es := n.entries;
    var c := match Child(es, p[0]) case Some(c) => c case None => Dir(CreatedDirPerm, []);
    LookupMkdirAll(c, p[1..], []);
    if |q| > 0 && q[0] == p[0] {
      LookupMkdirAll(c, p[1..], q[1..]);
      PrefixFacts(q, p);
      if Child(es, p[0]).None? && |q| > 1 && !(q[1..] <= p[1..]) {
        assert Lookup(c, q[1..]).None?;
      }
    }
    assert p[1..] == p[1..][..|p| - 1];
  }

  /**
   * An existing directory at the new path is never replaced: the rename
   * fails with EEXIST exactly when the old path exists and the new one is a
   * directory, and it succeeds only onto a missing path, a file, or itself.
   */
  lemma RenameOntoDirectory(n: Node, src: Path, dst: Path)
    ensures Rename(n, src, dst) == Err(Exists) <==> Lookup(n, src).Some? && IsDirAt(n, dst)
    ensures Rename(n, src, dst).Ok? ==> Lookup(n, dst).None? || Lookup(n, dst).value.File?
  {
  }

  /** Restoring a directory item onto an empty directory of the same name fails, as Go's rename does. */
  lemma RenameOntoEmptyDirectory()
    ensures Rename(Dir(493, [Entry("d", Dir(448, [])), Entry("s", Dir(448, [Entry("k", File("y"))]))]), ["s"], ["d"]) == Err(Exists)
  {
    var n := Dir(493, [Entry("d", Dir(448, [])), Entry("s", Dir(448, [Entry("k", File("y"))]))]);
    IndexOfIs(n.entries, "d", 0);
    IndexOfIs(n.entries, "s", 1);
    assert Lookup(n, ["d"]) == Some(Dir(448, []));
  }

  /** A successful rename moves the subtree at `src` to `dst` and leaves unrelated paths alone. */
  lemma RenameEffect(n: Node, src: Path, dst: Path, q: Path)
    requires Rename(n, src, dst).Ok? && src != dst
    ensures Lookup(n, src).Some?
    ensures !(src <= dst) && !(dst <= src)
    ensures dst <= q ==> Lookup(Rename(n, src, dst).value, q) == Lookup(Lookup(n, src).value, q[|dst|..])
    ensures src <= q ==> Lookup(Rename(n, src, dst).value, q) == None
    ensures !(src <= q) && !(q <= src) && !(dst <= q) && !(q <= dst) ==> Lookup(Rename(n, src, dst).value, q) == Lookup(n, q)
  {
    var x := Lookup(n, src).value;
    var r := RemoveAt(n, src);
    if dst < src {
      AncestorIsNonEmptyDir(n, dst, src);
    }
    LookupRemoveAt(n, src, Parent(dst));
    LookupRemoveAt(n, src, q);
    LookupPutAt(r, dst, x, q);
    if src <= q {
      LookupRemoveAt(n, src, q);
    }
  }

  /** Creating the parent of `dst`, then renaming `src` there: the subtree moves and unrelated paths stay. */
  lemma MkdirRenameEffect(n: Node, src: Path, dst: Path, q: Path)
    requires |dst| > 0 && src != dst && MkdirAll(n, Parent(dst)).Ok?
    requires Rename(MkdirAll(n, Parent(dst)).value, src, dst).Ok?
    ensures var r := Rename(MkdirAll(n, Parent(dst)).value, src, dst).value;
            Lookup(n, src).Some? &&
            Lookup(r, dst) == Lookup(n, src) &&
            Lookup(r, src) == None &&
            (!(q <= src) && !(src <= q) && !(q <= dst) && !(dst <= q) ==> Lookup(r, q) == Lookup(n, q))
  {
    var made := Parent(dst);
    var n1 := MkdirAll(n, made).value;
    RenameEffect(n1, src, dst, dst);
    RenameEffect(n1, src, dst, src);
    RenameEffect(n1, src, dst, q);
    LookupMkdirAll(n, made, src);
    LookupMkdirAll(n, made, q);
    assert dst[|dst|..] == [];
  }

  /** Renaming keeps every proper ancestor of the two paths in place, with its kind and permission bits. */
  lemma RenameAncestors(n: Node, src: Path, dst: Path, q: Path)
    requires Rename(n, src, dst).Ok? && src != dst
    requires q < src || q < dst
    ensures SameShape(Lookup(n, q), Lookup(Rename(n, src, dst).value, q))
  {
    var x := Lookup(n, src).value;
    var r := RemoveAt(n, src);
    RenameEffect(n, src, dst, q);
    LookupRemoveAt(n, src, q);
    LookupPutAt(r, dst, x, q);
    if q < src {
      SameShapeTrans(Lookup(n, q), Lookup(r, q), Lookup(PutAt(r, dst, x), q));
    }
  }

  lemma SameShapeTrans(a: Option<Node>, b: Option<Node>, c: Option<Node>)
    requires SameShape(a, b) && SameShape(b, c)
    ensures SameShape(a, c)
  {
  }

  // ---------------------------------------------------------------------
  // Exact contents of freshly created directories
  // ---------------------------------------------------------------------

  /** A chain of 0700 directories named `segs`, each holding only the next, ending in `leaf`. */
  function Chain(segs: Path, leaf: Node): Node
    decreases |segs|
  {
    if |segs| == 0 then leaf else Dir(CreatedDirPerm, [Entry(segs[0], Chain(segs[1..], leaf))])
  }

  /** The end of a chain is its leaf. */
  lemma {:induction false} LookupChain(segs: Path, leaf: Node)
    ensures Lookup(Chain(segs, leaf), segs) == Some(leaf)
    decreases |segs|
  {
    if |segs| > 0 {
      IndexOfIs([Entry(segs[0], Chain(segs[1..], leaf))], segs[0], 0);
      LookupChain(segs[1..], leaf);
    }
  }

  /** Creating directories keeps everything that exists in place, with its kind and permission bits. */
  lemma MkdirAllKeepsShape(n: Node, p: Path, q: Path)
    requires MkdirAll(n, p).Ok? && Lookup(n, q).Some?
    ensures SameShape(Lookup(n, q), Lookup(MkdirAll(n, p).value, q))
  {
    LookupMkdirAll(n, p, q);
  }

  lemma UpsertEmpty(name: string, x: Node)
    ensures Upsert([], name, x) == [Entry(name, x)]
  {
  }

  lemma UpsertSingle(name: string, x: Node, y: Node)
    ensures Upsert([Entry(name, x)], name, y) == [Entry(name, y)]
  {
    IndexOfIs([Entry(name, x)], name, 0);
  }

  /** Creating a path inside an empty directory builds exactly the chain of directories. */
  lemma {:induction false} MkdirAllEmpty(segs: Path)
    ensures MkdirAll(Dir(CreatedDirPerm, []), segs) == Ok(Chain(segs, Dir(CreatedDirPerm, [])))
    decreases |segs|
  {
    if |segs| > 0 {
      MkdirAllEmpty(segs[1..]);
      UpsertEmpty(segs[0], Chain(segs[1..], Dir(CreatedDirPerm, [])));
    }
  }

  /** Placing `x` at the end of a chain of empty directories fills its last directory with `x` alone. */
  lemma {:induction false} PutAtChain(segs: Path, name: string, x: Node)
    ensures PutAt(Chain(segs, Dir(CreatedDirPerm, [])), segs + [name], x) == Chain(segs, Dir(CreatedDirPerm, [Entry(name, x)]))
    decreases |segs|
  {
    if |segs| == 0 {
      UpsertEmpty(name, x);
    } else {
      var sub := Chain(segs[1..], Dir(CreatedDirPerm, []));
      assert (segs + [name])[0] == segs[0] && (segs + [name])[1..] == segs[1..] + [name];
      IndexOfIs([Entry(segs[0], sub)], segs[0], 0);
      PutAtChain(segs[1..], name, x);
      UpsertSingle(segs[0], sub, PutAt(sub, segs[1..] + [name], x));
    }
  }

  /** Creating `c + s` below an existing directory `c` acts on `c`'s subtree as creating `s` inside it. */
  lemma {:induction false} MkdirAllBelow(n: Node, c: Path, s: Path)
    requires IsDirAt(n, c)
    ensures MkdirAll(n, c + s).Ok? <==> MkdirAll(Lookup(n, c).value, s).Ok?
    ensures MkdirAll(n, c + s).Ok? ==> Lookup(MkdirAll(n, c + s).value, c) == Some(MkdirAll(Lookup(n, c).value, s).value)
    decreases |c|
  {
    if |c| == 0 {
      assert c + s == s;
    } else {
      var es := n.entries;
      var child := Child(es, c[0]).value;
      assert (c + s)[0] == c[0] && (c + s)[1..] == c[1..] + s;
      assert Lookup(n, c) == Lookup(child, c[1..]);
      MkdirAllBelow(child, c[1..], s);
      if MkdirAll(child, c[1..] + s).Ok? {
        var made := MkdirAll(child, c[1..] + s).value;
        assert MkdirAll(n, c + s) == Ok(Dir(n.perm, Upsert(es, c[0], made)));
        assert Lookup(Dir(n.perm, Upsert(es, c[0], made)), c) == Lookup(made, c[1..]);
      }
    }
  }

  /** Placing a node at `c + s` below an existing directory `c` acts on `c`'s subtree as placing it at `s`. */
  lemma {:induction false} PutAtBelow(n: Node, c: Path, s: Path, x: Node)
    requires IsDirAt(n, c) && |s| > 0
    ensures Lookup(PutAt(n, c + s, x), c) == Some(PutAt(Lookup(n, c).value, s, x))
    decreases |c|
  {
    if |c| == 0 {
      assert c + s == s;
    } else {
      var es := n.entries;
      var child := Child(es, c[0]).value;
      assert (c + s)[0] == c[0] && (c + s)[1..] == c[1..] + s;
      assert Lookup(n, c) == Lookup(child, c[1..]);
      PutAtBelow(child, c[1..], s, x);
      var put := PutAt(child, c[1..] + s, x);
      assert PutAt(n, c + s, x) == Dir(n.perm, Upsert(es, c[0], put));
      assert Lookup(Dir(n.perm, Upsert(es, c[0], put)), c) == Lookup(put, c[1..]);
    }
  }
}

=== FILE: flush_cmd.dfy ===
/**
 * The `flush` command (cmd/flush.go): permanently deletes the named deletion
 * groups, or with `--all` the whole trash directory, which is then recreated.
 */
module FlushCmd {
  import opened Results
  import opened FileTree
  import opened DeletionIds
  import opened Common

  datatype Status =
    | Done
    | ShowHelp                   // no ids and no --all: help is shown
    | Rejected                   // --all together with ids
    | UnknownId(id: string)      // an id no trash directory carries; the command returns without deleting
    | Aborted(reason: EnsureError)

  datatype Outcome = Outcome(fs: Node, status: Status)

  /** `delGroupMap`: each trash directory's id part to its name; a later name with the same id part wins. */
  function IdMap(names: seq<string>): map<string, string>
  {
    if |names| == 0 then map[]
    else
      var last := names[|names| - 1];
      IdMap(names[..|names| - 1])[IdPart(last) := last]
  }

  /** The map's keys are exactly the listed id parts. */
  lemma {:induction false} IdMapKeys(names: seq<string>, id: string)
    ensures id in IdMap(names) <==> exists i :: 0 <= i < |names| && IdPart(names[i]) == id
  {
    if |names| > 0 {
      var init := names[..|names| - 1];
      IdMapKeys(init, id);
      assert forall i :: 0 <= i < |init| ==> init[i] == names[i];
    }
  }

  /** Each id part is sent to the last listed name that carries it: later entries overwrite earlier ones. */
  lemma {:induction false} IdMapLastWins(names: seq<string>, i: int)
    requires 0 <= i < |names|
    requires forall j :: i < j < |names| ==> IdPart(names[j]) != IdPart(names[i])
    ensures IdPart(names[i]) in IdMap(names) && IdMap(names)[IdPart(names[i])] == names[i]
  {
    var init, last := names[..|names| - 1], names[|names| - 1];
    var id := IdPart(names[i]);
    assert IdMap(names) == IdMap(init)[IdPart(last) := last];
    if i < |names| - 1 {
      assert init[i] == names[i];
      assert forall j :: i < j < |init| ==> IdPart(init[j]) != id by {
        forall j | i < j < |init| ensures IdPart(init[j]) != id {
          assert init[j] == names[j];
        }
      }
      IdMapLastWins(init, i);
      assert IdPart(last) != id;
    }
  }

  /** The first argument that is not a key of the map. */
  function FirstUnknown(args: seq<string>, m: map<string, string>): (r: Option<string>)
    ensures r.Some? ==> r.value in args && r.value !in m
    ensures r.None? ==> forall i :: 0 <= i < |args| ==> args[i] in m
  {
    if |args| == 0 then None
    else if args[0] !in m then Some(args[0])
    else FirstUnknown(args[1..], m)
  }

  /** `os.RemoveAll(path.Join(trashPath, delGroupMap[arg]))` for every argument, in order. */
  function RemoveGroups(fs: Node, trash: Path, m: map<string, string>, args: seq<string>): Node
    requires forall i :: 0 <= i < |args| ==> args[i] in m
    decreases |args|
  {
    if |args| == 0 then fs
    else RemoveGroups(RemoveAt(fs, trash + [m[args[0]]]), trash, m, args[1..])
  }

  /** The ids of the trash directories, read from the listing; a failed read counts as an empty trash. */
  function TrashIdMap(fs: Node, trash: Path): map<string, string> {
    match ReadDir(fs, trash)
    case Ok(es) => IdMap(Names(es))
    case Err(_) => map[]
  }

  function Flush(fs: Node, trash: Path, all: bool, args: seq<string>): (r: Outcome)
    ensures !all && |args| == 0 ==> r == Outcome(fs, ShowHelp)
    ensures all && |args| > 0 ==> r == Outcome(fs, Rejected)
    ensures r.status.ShowHelp? <==> !all && |args| == 0
    ensures r.status.Rejected? <==> all && |args| > 0
    ensures r.status.Aborted? && !all ==> r.fs == fs && EnsureDirExists(fs, trash).Err?
    ensures (all <==> |args| == 0) && EnsureDirExists(fs, trash).Err? ==>
              r == Outcome(fs, Aborted(EnsureDirExists(fs, trash).error))
    ensures r.status.Done? || r.status.UnknownId? ==> EnsureDirExists(fs, trash).Ok?
    ensures r.status.UnknownId? ==>
              !all && r.status.id in args && r.status.id !in TrashIdMap(r.fs, trash) &&
              r.fs == EnsureDirExists(fs, trash).value
    ensures !all && |args| > 0 && EnsureDirExists(fs, trash).Ok? ==>
              (r.status.UnknownId? <==>
                 exists i :: 0 <= i < |args| && args[i] !in TrashIdMap(EnsureDirExists(fs, trash).value, trash))
    ensures !all && |args| > 0 && EnsureDirExists(fs, trash).Ok? ==>
              (r.status.Done? <==>
                 forall i :: 0 <= i < |args| ==> args[i] in TrashIdMap(EnsureDirExists(fs, trash).value, trash))
  {
    if !all && |args| < 1 then Outcome(fs, ShowHelp)
    else if all && |args| > 0 then Outcome(fs, Rejected)
    else match EnsureDirExists(fs, trash)
      case Err(e) => Outcome(fs, Aborted(e))
      case Ok(fs1) =>
        if all then
          var emptied := RemoveAt(fs1, trash);
          match MkdirAll(emptied, trash)
          case Err(e) => Outcome(emptied, Aborted(CreateFailed(e)))
          case Ok(fs2) => Outcome(fs2, Done)
        else
          var m := TrashIdMap(fs1, trash);
          match FirstUnknown(args, m)
          case Some(a) => Outcome(fs1, UnknownId(a))
          case None => Outcome(RemoveGroups(fs1, trash, m, args), Done)
  }

  // ---------------------------------------------------------------------
  // Properties
  // ---------------------------------------------------------------------

  /** Removing groups deletes exactly the directories named by the map for the given ids. */
  lemma {:induction false} RemoveGroupsEffect(fs: Node, trash: Path, m: map<string, string>, args: seq<string>, name: string)
    requires forall i :: 0 <= i < |args| ==> args[i] in m
    ensures Lookup(RemoveGroups(fs, trash, m, args), trash + [name]) ==
              if exists i :: 0 <= i < |args| && m[args[i]] == name then None else Lookup(fs, trash + [name])
    decreases |args|
  {
    if |args| > 0 {
      var p := trash + [m[args[0]]];
      var q := trash + [name];
      LookupRemoveAt(fs, p, q);
      RemoveGroupsEffect(RemoveAt(fs, p), trash, m, args[1..], name);
      if m[args[0]] != name {
        assert p[|trash|] != q[|trash|];
        assert !(p <= q) && !(q <= p);
      } else {
        assert p <= q;
      }
      assert forall i :: 0 < i < |args| ==> args[1..][i - 1] == args[i];
    }
  }

  /** Removing groups leaves every path beside the trash directory alone. */
  lemma {:induction false} RemoveGroupsFrame(fs: Node, trash: Path, m: map<string, string>, args: seq<string>, q: Path)
    requires forall i :: 0 <= i < |args| ==> args[i] in m
    requires !(q <= trash) && !(trash <= q)
    ensures Lookup(RemoveGroups(fs, trash, m, args), q) == Lookup(fs, q)
    decreases |args|
  {
    if |args| > 0 {
      var p := trash + [m[args[0]]];
      LookupRemoveAt(fs, p, q);
      RemoveGroupsFrame(RemoveAt(fs, p), trash, m, args[1..], q);
    }
  }

  /** With ids, flush removes exactly the trash directories the ids map to; all other groups stay. */
  lemma FlushRemovesOnlyNamedGroups(fs: Node, trash: Path, args: seq<string>, name: string)
    requires Flush(fs, trash, false, args).status.Done?
    ensures var fs1 := EnsureDirExists(fs, trash).value;
            var m := TrashIdMap(fs1, trash);
            Lookup(Flush(fs, trash, false, args).fs, trash + [name]) ==
              if exists i :: 0 <= i < |args| && args[i] in m && m[args[i]] == name then None
              else Lookup(fs1, trash + [name])
  {
    var fs1 := EnsureDirExists(fs, trash).value;
    RemoveGroupsEffect(fs1, trash, TrashIdMap(fs1, trash), args, name);
  }

  /** Once the trash check passed, the trash directory exists in the resulting tree. */
  lemma EnsuredTrashIsDir(fs: Node, trash: Path)
    requires EnsureDirExists(fs, trash).Ok?
    ensures IsDirAt(EnsureDirExists(fs, trash).value, trash)
  {
  }

  /** Removing the trash directory and creating it again yields an empty 0700 directory. */
  lemma RecreateTrash(fs: Node, trash: Path)
    requires |trash| > 0 && IsDirAt(fs, trash)
    ensures MkdirAll(RemoveAt(fs, trash), trash).Ok?
    ensures Lookup(MkdirAll(RemoveAt(fs, trash), trash).value, trash) == Some(Dir(CreatedDirPerm, []))
  {
    var emptied := RemoveAt(fs, trash);
    forall k | 0 <= k <= |trash| ensures !IsFileAt(emptied, trash[..k]) {
      LookupRemoveAt(fs, trash, trash[..k]);
      if k < |trash| {
        AncestorIsNonEmptyDir(fs, trash[..k], trash);
      } else {
        assert trash[..k] == trash;
      }
    }
    MkdirAllSucceeds(emptied, trash);
    LookupRemoveAt(fs, trash, trash);
    LookupMkdirAll(emptied, trash, trash);
  }

  /** Flush leaves everything outside the trash directory as it was, in either mode. */
  lemma FlushKeepsOutside(fs: Node, trash: Path, all: bool, args: seq<string>, q: Path)
    requires !(q <= trash) && !(trash <= q)
    ensures Lookup(Flush(fs, trash, all, args).fs, q) == Lookup(fs, q)
  {
    var r := Flush(fs, trash, all, args);
    if ((all && |args| == 0) || (!all && |args| > 0)) && EnsureDirExists(fs, trash).Ok? {
      var fs1 := EnsureDirExists(fs, trash).value;
      if all {
        var emptied := RemoveAt(fs1, trash);
        LookupRemoveAt(fs1, trash, q);
        if MkdirAll(emptied, trash).Ok? {
          LookupMkdirAll(emptied, trash, q);
        }
      } else if r.status.Done? {
        RemoveGroupsFrame(fs1, trash, TrashIdMap(fs1, trash), args, q);
      }
    }
  }

  /** `flush --all` succeeds whenever the trash check passes, and leaves the trash an existing, empty 0700 directory. */
  lemma FlushAllEmptiesTrash(fs: Node, trash: Path)
    requires |trash| > 0
    ensures Flush(fs, trash, true, []).status.Done? <==> EnsureDirExists(fs, trash).Ok?
    ensures Flush(fs, trash, true, []).status.Done? ==>
              Lookup(Flush(fs, trash, true, []).fs, trash) == Some(Dir(CreatedDirPerm, []))
  {
    if EnsureDirExists(fs, trash).Ok? {
      EnsuredTrashIsDir(fs, trash);
      RecreateTrash(EnsureDirExists(fs, trash).value, trash);
    }
  }
}

=== FILE: lifecycle.dfy ===
/**
 * One deletion group from `rm` to `restore`: a file moved to the trash by rm
 * is walked back by restore to the parent of its mirror path. With the mirror
 * taken as the argument's absolute path this is where the file came from;
 * with the argument as given (the code of cmd/rm.go) a relative argument comes
 * back below `/` instead of below the working directory.
 */
module Lifecycle {
  import opened Results
  import opened FileTree
  import opened DeletionIds
  import opened Common
  import opened Sequential
  import opened RemoveCmd
  import RestoreCmd

  /** Neither path lies on or below the other. */
  predicate Unrelated(a: Path, b: Path) {
    !(a <= b) && !(b <= a)
  }

  /** A prefix of `t + b` is a prefix of `t` or extends it. */
  lemma PrefixSplit(a: Path, t: Path, b: Path)
    requires a <= t + b
    ensures a <= t || t <= a
  {
    if |a| <= |t| {
      assert a == (t + b)[..|a|] == t[..|a|];
    } else {
      assert t == (t + b)[..|t|] == a[..|t|];
    }
  }

  /** A path unrelated to `t` is unrelated to everything below `t`. */
  lemma UnrelatedBelow(a: Path, t: Path, b: Path)
    requires Unrelated(a, t)
    ensures Unrelated(a, t + b)
  {
    if a <= t + b {
      PrefixSplit(a, t, b);
    }
  }

  /** An existing, owner-`rwx` directory. */
  predicate UsableDirAt(fs: Node, p: Path) {
    IsDirAt(fs, p) && Lookup(fs, p).value.perm >= 448
  }

  /** The group directory is created empty inside a usable trash directory that does not hold it yet. */
  lemma CreateGroup(fs: Node, trash: Path, name: string, q: Path)
    requires UsableDirAt(fs, trash) && Lookup(fs, trash + [name]).None?
    ensures MkdirAll(fs, trash + [name]).Ok?
    ensures Lookup(MkdirAll(fs, trash + [name]).value, trash + [name]) == Some(Dir(CreatedDirPerm, []))
    ensures !(q <= trash + [name]) ==> Lookup(MkdirAll(fs, trash + [name]).value, q) == Lookup(fs, q)
    ensures Lookup(fs, q).Some? ==> SameShape(Lookup(fs, q), Lookup(MkdirAll(fs, trash + [name]).value, q))
  {
    LookupAppend(fs, trash, [name]);
    MkdirAllBelow(fs, trash, [name]);
    LookupMkdirAll(fs, trash + [name], trash + [name]);
    LookupMkdirAll(fs, trash + [name], q);
  }

  /** The chain the mirror's parent becomes inside an empty group directory. */
  lemma CreateMirrorParent(fs: Node, container: Path, P: Path, q: Path)
    requires Lookup(fs, container) == Some(Dir(CreatedDirPerm, []))
    ensures MkdirAll(fs, container + P).Ok?
    ensures Lookup(MkdirAll(fs, container + P).value, container) == Some(Chain(P, Dir(CreatedDirPerm, [])))
    ensures IsDirAt(MkdirAll(fs, container + P).value, container + P)
    ensures !(q <= container + P) ==> Lookup(MkdirAll(fs, container + P).value, q) == Lookup(fs, q)
    ensures Lookup(fs, q).Some? ==> SameShape(Lookup(fs, q), Lookup(MkdirAll(fs, container + P).value, q))
  {
    MkdirAllBelow(fs, container, P);
    MkdirAllEmpty(P);
    LookupMkdirAll(fs, container + P, container + P);
    LookupMkdirAll(fs, container + P, q);
  }

  /** The file's destination at the end of the chain is free and its parent a directory, so the rename goes through. */
  lemma ChainRename(fs: Node, src: Path, container: Path, mirror: Path)
    requires |src| > 0 && |mirror| > 0 && IsFileAt(fs, src)
    requires Lookup(fs, container) == Some(Chain(Parent(mirror), Dir(CreatedDirPerm, [])))
    requires Unrelated(src, container)
    ensures Rename(fs, src, container + mirror) == Ok(PutAt(RemoveAt(fs, src), container + mirror, Lookup(fs, src).value))
  {
    var P, last := Parent(mirror), mirror[|mirror| - 1];
    var dst := container + mirror;
    var empty := Dir(CreatedDirPerm, []);
    assert mirror == P + [last];
    assert dst == (container + P) + [last];
    UnrelatedBelow(src, container, mirror);
    LookupAppend(fs, container, P);
    LookupChain(P, empty);
    LookupAppend(fs, container, mirror);
    LookupAppend(Chain(P, empty), P, [last]);
    assert Lookup(fs, dst) == None;
    assert Parent(dst) == container + P;
  }

  /** After that rename the group directory holds the chain with the file at its end. */
  lemma ChainRenameContents(fs: Node, src: Path, container: Path, mirror: Path)
    requires |src| > 0 && |mirror| > 0 && IsFileAt(fs, src)
    requires Lookup(fs, container) == Some(Chain(Parent(mirror), Dir(CreatedDirPerm, [])))
    requires Unrelated(src, container)
    ensures Lookup(PutAt(RemoveAt(fs, src), container + mirror, Lookup(fs, src).value), container) ==
              Some(Chain(Parent(mirror), Dir(CreatedDirPerm, [Entry(mirror[|mirror| - 1], Lookup(fs, src).value)])))
  {
    var P, last := Parent(mirror), mirror[|mirror| - 1];
    var x := Lookup(fs, src).value;
    assert mirror == P + [last];
    LookupRemoveAt(fs, src, container);
    PutAtBelow(RemoveAt(fs, src), container, mirror, x);
    PutAtChain(P, last, x);
  }

  /** Renaming a file into the end of a chain of empty directories in the group. */
  lemma MoveIntoChain(fs: Node, src: Path, container: Path, mirror: Path, q: Path)
    requires |src| > 0 && |mirror| > 0 && IsFileAt(fs, src)
    requires Lookup(fs, container) == Some(Chain(Parent(mirror), Dir(CreatedDirPerm, [])))
    requires Unrelated(src, container)
    ensures Rename(fs, src, container + mirror).Ok?
    ensures var r := Rename(fs, src, container + mirror).value;
            Lookup(r, container) ==
              Some(Chain(Parent(mirror), Dir(CreatedDirPerm, [Entry(mirror[|mirror| - 1], Lookup(fs, src).value)]))) &&
            Lookup(r, container + mirror) == Lookup(fs, src) &&
            Lookup(r, src) == None &&
            (Unrelated(q, src) && Unrelated(q, container) ==> Lookup(r, q) == Lookup(fs, q)) &&
            ((q < src || q < container) ==> SameShape(Lookup(fs, q), Lookup(r, q)))
  {
    var dst := container + mirror;
    ChainRename(fs, src, container, mirror);
    ChainRenameContents(fs, src, container, mirror);
    UnrelatedBelow(src, container, mirror);
    RenameEffect(fs, src, dst, src);
    RenameEffect(fs, src, dst, dst);
    assert dst[|dst|..] == [];
    if Unrelated(q, src) && Unrelated(q, container) {
      UnrelatedBelow(q, container, mirror);
      RenameEffect(fs, src, dst, q);
    }
    if q < src || q < container {
      RenameAncestors(fs, src, dst, q);
    }
  }

  /** A group directory as rm leaves it for one file: the chain of the mirror's parent, the file at its end. */
  function Group(mirror: Path, x: Node): Node
    requires |mirror| > 0
  {
    Chain(Parent(mirror), Dir(CreatedDirPerm, [Entry(mirror[|mirror| - 1], x)]))
  }

  /** The trees rm of one argument passes through: group created, mirror parent created, file renamed. */
  function RmOneSteps(fs: Node, cwd: Path, container: Path, arg: PathArg, resolve: bool): Result<Node, FsError>
    requires |arg.segs| > 0
  {
    var mirror := Mirror(cwd, arg, resolve);
    match MkdirAll(fs, container)
    case Err(e) => Err(e)
    case Ok(fs2) =>
      match MkdirAll(fs2, container + Parent(mirror))
      case Err(e) => Err(e)
      case Ok(fs3) => Rename(fs3, Abs(cwd, arg), container + mirror)
  }

  /** Under the conditions of `RmOne`, rm runs exactly those steps and completes. */
  lemma RmOneDone(fs: Node, cwd: Path, trash: Path, timestamp: string, nanoTime: Int64, arg: PathArg, resolve: bool)
    requires |arg.segs| > 0
    requires IsFileAt(fs, Abs(cwd, arg))
    requires UsableDirAt(fs, trash)
    requires RmOneSteps(fs, cwd, trash + [InstanceName(timestamp, nanoTime)], arg, resolve).Ok?
    ensures RemoveRun(fs, cwd, trash, timestamp, nanoTime, [arg], resolve) ==
              Outcome(RmOneSteps(fs, cwd, trash + [InstanceName(timestamp, nanoTime)], arg, resolve).value,
                      Done(trash + [InstanceName(timestamp, nanoTime)]))
  {
    var container := trash + [InstanceName(timestamp, nanoTime)];
    assert FirstMissing(fs, cwd, [arg]) == None;
    EnsureTrashDirExistsAgrees(fs, trash);
    assert EnsureTrashDirExists(fs, trash) == Ok(fs);
    var fs2 := MkdirAll(fs, container).value;
    var fs4 := RmOneSteps(fs, cwd, container, arg, resolve).value;
    assert MoveArg(fs2, cwd, container, arg, resolve) == Ok(fs4);
    assert [arg][1..] == [];
    assert RunAll(fs2, [arg], MoveStep(cwd, container, resolve)) == Stop(fs4, None);
  }

  /** The conditions under which rm's steps for one file into a fresh group `name` all succeed. */
  predicate RmOneConditions(fs: Node, cwd: Path, trash: Path, name: string, arg: PathArg) {
    |arg.segs| > 0 &&
    IsFileAt(fs, Abs(cwd, arg)) &&
    UsableDirAt(fs, trash) &&
    Lookup(fs, trash + [name]).None? &&
    Unrelated(Abs(cwd, arg), trash)
  }

  /**
   * The steps for one file: creating the group, creating the mirror's parent
   * in it, renaming the file to its mirror path. Each tree is stated with the
   * path `q` it is looked at.
   */
  lemma RmOneStepTrees(fs: Node, cwd: Path, trash: Path, name: string, arg: PathArg, resolve: bool, q: Path)
    requires RmOneConditions(fs, cwd, trash, name, arg)
    ensures var container, mirror := trash + [name], Mirror(cwd, arg, resolve);
            MkdirAll(fs, container).Ok? &&
            MkdirAll(MkdirAll(fs, container).value, container + Parent(mirror)).Ok? &&
            RmOneSteps(fs, cwd, container, arg, resolve) ==
              Rename(MkdirAll(MkdirAll(fs, container).value, container + Parent(mirror)).value, Abs(cwd, arg), container + mirror)
    ensures var container, src, mirror := trash + [name], Abs(cwd, arg), Mirror(cwd, arg, resolve);
            var fs3 := MkdirAll(MkdirAll(fs, container).value, container + Parent(mirror)).value;
            Lookup(fs3, container) == Some(Chain(Parent(mirror), Dir(CreatedDirPerm, []))) &&
            Lookup(fs3, src) == Lookup(fs, src) &&
            (Unrelated(q, container) ==> Lookup(fs3, q) == Lookup(fs, q)) &&
            (Lookup(fs, q).Some? ==> SameShape(Lookup(fs, q), Lookup(fs3, q)))
  {
    var container := trash + [name];
    var src, mirror := Abs(cwd, arg), Mirror(cwd, arg, resolve);
    var P := Parent(mirror);
    UnrelatedBelow(src, trash, [name]);
    UnrelatedBelow(src, container, P);
    CreateGroup(fs, trash, name, src);
    CreateGroup(fs, trash, name, q);
    var fs2 := MkdirAll(fs, container).value;
    CreateMirrorParent(fs2, container, P, src);
    CreateMirrorParent(fs2, container, P, q);
    if Unrelated(q, container) {
      UnrelatedBelow(q, container, P);
    }
    var fs3 := MkdirAll(fs2, container + P).value;
    if Lookup(fs, q).Some? {
      SameShapeTrans(Lookup(fs, q), Lookup(fs2, q), Lookup(fs3, q));
    }
  }

  /**
   * The tree after rm's steps for one file outside the trash, moved into a
   * fresh group directory `name`: the group holds exactly the chain of
   * directories of the mirror's parent with the file at its end, the file is
   * gone from its place, paths unrelated to both stay as they were, and
   * their ancestors keep their kind and permission bits.
   */
  lemma RmOneTree(fs: Node, cwd: Path, trash: Path, name: string, arg: PathArg, resolve: bool, q: Path)
    requires RmOneConditions(fs, cwd, trash, name, arg)
    ensures RmOneSteps(fs, cwd, trash + [name], arg, resolve).Ok?
    ensures var container := trash + [name];
            var src, mirror := Abs(cwd, arg), Mirror(cwd, arg, resolve);
            var t := RmOneSteps(fs, cwd, container, arg, resolve).value;
            Lookup(t, container) == Some(Group(mirror, Lookup(fs, src).value)) &&
            Lookup(t, src) == None &&
            (Unrelated(q, src) && Unrelated(q, container) ==> Lookup(t, q) == Lookup(fs, q)) &&
            ((q < src || q < container) && Lookup(fs, q).Some? ==> SameShape(Lookup(fs, q), Lookup(t, q)))
  {
    var container := trash + [name];
    var src, mirror := Abs(cwd, arg), Mirror(cwd, arg, resolve);
    RmOneStepTrees(fs, cwd, trash, name, arg, resolve, q);
    var fs3 := MkdirAll(MkdirAll(fs, container).value, container + Parent(mirror)).value;
    UnrelatedBelow(src, trash, [name]);
    MoveIntoChain(fs3, src, container, mirror, q);
    if (q < src || q < container) && Lookup(fs, q).Some? {
      SameShapeTrans(Lookup(fs, q), Lookup(fs3, q), Lookup(RmOneSteps(fs, cwd, container, arg, resolve).value, q));
    }
  }

  /**
   * rm of one file outside the trash into a fresh group directory: it
   * completes, and leaves the tree `RmOneTree` describes.
   */
  lemma RmOne(fs: Node, cwd: Path, trash: Path, timestamp: string, nanoTime: Int64, arg: PathArg, resolve: bool, q: Path)
    requires |arg.segs| > 0
    requires IsFileAt(fs, Abs(cwd, arg))
    requires UsableDirAt(fs, trash)
    requires Lookup(fs, trash + [InstanceName(timestamp, nanoTime)]).None?
    requires Unrelated(Abs(cwd, arg), trash)
    ensures var container := trash + [InstanceName(timestamp, nanoTime)];
            var src, mirror := Abs(cwd, arg), Mirror(cwd, arg, resolve);
            var out := RemoveRun(fs, cwd, trash, timestamp, nanoTime, [arg], resolve);
            out.status == Done(container) &&
            Lookup(out.fs, container) == Some(Group(mirror, Lookup(fs, src).value)) &&
            Lookup(out.fs, src) == None &&
            (Unrelated(q, src) && Unrelated(q, container) ==> Lookup(out.fs, q) == Lookup(fs, q)) &&
            ((q < src || q < container) && Lookup(fs, q).Some? ==> SameShape(Lookup(fs, q), Lookup(out.fs, q)))
  {
    RmOneTree(fs, cwd, trash, InstanceName(timestamp, nanoTime), arg, resolve, q);
    RmOneDone(fs, cwd, trash, timestamp, nanoTime, arg, resolve);
  }

  /** Inside such a group, the file sits at its mirror path. */
  lemma GroupHoldsFile(fs: Node, container: Path, mirror: Path, x: Node)
    requires |mirror| > 0 && Lookup(fs, container) == Some(Group(mirror, x))
    ensures Lookup(fs, container + Parent(mirror)) == Some(Dir(CreatedDirPerm, [Entry(mirror[|mirror| - 1], x)]))
    ensures Lookup(fs, container + mirror) == Some(x)
  {
    var P, last := Parent(mirror), mirror[|mirror| - 1];
    var leaf := Dir(CreatedDirPerm, [Entry(last, x)]);
    assert mirror == P + [last];
    LookupAppend(fs, container, P);
    LookupAppend(fs, container, mirror);
    LookupAppend(Group(mirror, x), P, [last]);
    LookupChain(P, leaf);
    IndexOfIs(leaf.entries, last, 0);
  }

  /** Moving the one item of the walk's last directory is renaming the file to its mirror path. */
  lemma MoveOneItem(fs: Node, container: Path, mirror: Path)
    requires |mirror| > 0 && Rename(fs, container + mirror, mirror).Ok?
    ensures var P := Parent(mirror);
            RestoreCmd.MoveItems(fs, container + P, P, [mirror[|mirror| - 1]]) ==
              RestoreCmd.Outcome(Rename(fs, container + mirror, mirror).value, RestoreCmd.Done)
  {
    var P, last := Parent(mirror), mirror[|mirror| - 1];
    assert mirror == P + [last];
    assert container + P + [last] == container + mirror;
    var fs5 := Rename(fs, container + mirror, mirror).value;
    assert [last][1..] == [];
    assert RunAll(fs, [last], RestoreCmd.ItemStep(container + P, P)) == Stop(fs5, None);
  }

  /** Under the conditions of `RestoreOne`, restoring the group walks to the mirror's parent, moves the file there and removes the group. */
  lemma RestoreGroupOne(fs: Node, trash: Path, name: string, mirror: Path, x: Node)
    requires |mirror| > 0 && x.File?
    requires UsableDirAt(fs, Parent(mirror))
    requires Lookup(fs, trash + [name]) == Some(Group(mirror, x))
    requires Rename(fs, trash + [name] + mirror, mirror).Ok?
    ensures RestoreCmd.RestoreGroup(fs, trash, name) ==
              RestoreCmd.Outcome(RemoveAt(Rename(fs, trash + [name] + mirror, mirror).value, trash + [name]), RestoreCmd.Done)
  {
    var container := trash + [name];
    var P, last := Parent(mirror), mirror[|mirror| - 1];
    var items := [Entry(last, x)];
    RestoreCmd.WalkChain(P, items);
    GroupHoldsFile(fs, container, mirror, x);
    assert EnsureDirExists(fs, P) == Ok(fs);
    assert ReadDir(fs, container + P) == Ok(items);
    assert Names(items) == [last];
    MoveOneItem(fs, container, mirror);
  }

  lemma RestoreOneDone(fs: Node, trash: Path, name: string, mirror: Path, x: Node)
    requires |mirror| > 0 && x.File?
    requires UsableDirAt(fs, trash) && UsableDirAt(fs, Parent(mirror))
    requires Lookup(fs, trash + [name]) == Some(Group(mirror, x))
    requires Rename(fs, trash + [name] + mirror, mirror).Ok?
    ensures RestoreCmd.RestoreRun(fs, trash, [name]) ==
              RestoreCmd.Outcome(RemoveAt(Rename(fs, trash + [name] + mirror, mirror).value, trash + [name]), RestoreCmd.Done)
  {
    RestoreGroupOne(fs, trash, name, mirror, x);
    var out := RemoveAt(Rename(fs, trash + [name] + mirror, mirror).value, trash + [name]);
    assert RestoreCmd.RestoreAll(out, trash, []) == RestoreCmd.Outcome(out, RestoreCmd.Done);
    assert [name][1..] == [];
    assert RestoreCmd.RestoreAll(fs, trash, [name]) == RestoreCmd.Outcome(out, RestoreCmd.Done);
    assert EnsureDirExists(fs, trash) == Ok(fs);
  }

  /**
   * restore of a group rm made for one file: it completes, the file is at its
   * mirror path, the group directory is gone, and paths unrelated to both are untouched.
   */
  lemma RestoreOne(fs: Node, trash: Path, name: string, mirror: Path, x: Node, q: Path)
    requires |mirror| > 0 && x.File?
    requires UsableDirAt(fs, trash) && UsableDirAt(fs, Parent(mirror))
    requires Lookup(fs, trash + [name]) == Some(Group(mirror, x))
    requires Lookup(fs, mirror) == None
    requires Unrelated(mirror, trash + [name])
    ensures var out := RestoreCmd.RestoreRun(fs, trash, [name]);
            out.status == RestoreCmd.Done &&
            Lookup(out.fs, mirror) == Some(x) &&
            Lookup(out.fs, trash + [name]) == None &&
            (Unrelated(q, mirror) && Unrelated(q, trash + [name]) ==> Lookup(out.fs, q) == Lookup(fs, q))
  {
    var container := trash + [name];
    var src := container + mirror;
    GroupHoldsFile(fs, container, mirror, x);
    assert Rename(fs, src, mirror) == Ok(PutAt(RemoveAt(fs, src), mirror, x));
    var fs5 := Rename(fs, src, mirror).value;
    RestoreOneDone(fs, trash, name, mirror, x);
    RenameEffect(fs, src, mirror, mirror);
    assert mirror[|mirror|..] == [];
    LookupRemoveAt(fs5, container, mirror);
    LookupRemoveAt(fs5, container, container);
    if Unrelated(q, mirror) && Unrelated(q, container) {
      UnrelatedBelow(q, container, mirror);
      RenameEffect(fs, src, mirror, q);
      LookupRemoveAt(fs5, container, q);
    }
  }

  // ---------------------------------------------------------------------
  // rm, then restore
  // ---------------------------------------------------------------------

  /** The conditions under which rm of one file and restore of its group both go through. */
  predicate RoundTripConditions(fs: Node, cwd: Path, trash: Path, name: string, arg: PathArg, resolve: bool) {
    |arg.segs| > 0 &&
    IsFileAt(fs, Abs(cwd, arg)) &&
    UsableDirAt(fs, trash) &&
    Lookup(fs, trash + [name]).None? &&
    Unrelated(Abs(cwd, arg), trash) &&
    UsableDirAt(fs, Parent(Mirror(cwd, arg, resolve))) &&
    Unrelated(Mirror(cwd, arg, resolve), trash) &&
    !(Abs(cwd, arg) <= Parent(Mirror(cwd, arg, resolve))) &&
    (Mirror(cwd, arg, resolve) == Abs(cwd, arg) ||
     (Lookup(fs, Mirror(cwd, arg, resolve)) == None && Unrelated(Mirror(cwd, arg, resolve), Abs(cwd, arg))))
  }

  /** After such an rm, the trash is still usable. */
  lemma RmKeepsTrash(fs: Node, cwd: Path, trash: Path, name: string, arg: PathArg, resolve: bool)
    requires RoundTripConditions(fs, cwd, trash, name, arg, resolve)
    ensures RmOneSteps(fs, cwd, trash + [name], arg, resolve).Ok?
    ensures UsableDirAt(RmOneSteps(fs, cwd, trash + [name], arg, resolve).value, trash)
  {
    RmOneTree(fs, cwd, trash, name, arg, resolve, trash);
  }

  /** After such an rm, the directory the file is restored into is still usable. */
  lemma RmKeepsRestoreRoot(fs: Node, cwd: Path, trash: Path, name: string, arg: PathArg, resolve: bool)
    requires RoundTripConditions(fs, cwd, trash, name, arg, resolve)
    ensures RmOneSteps(fs, cwd, trash + [name], arg, resolve).Ok?
    ensures UsableDirAt(RmOneSteps(fs, cwd, trash + [name], arg, resolve).value, Parent(Mirror(cwd, arg, resolve)))
  {
    var src, mirror := Abs(cwd, arg), Mirror(cwd, arg, resolve);
    var container := trash + [name];
    var P := Parent(mirror);
    UnrelatedBelow(mirror, trash, [name]);
    assert P <= mirror;
    assert !(container <= P);
    RmOneTree(fs, cwd, trash, name, arg, resolve, P);
    if P <= src {
      assert P < src;
    } else if P <= container {
      assert P < container;
    } else {
      assert Unrelated(P, src) && Unrelated(P, container);
    }
  }

  /** After such an rm, nothing is at the mirror path outside the trash. */
  lemma RmLeavesMirrorFree(fs: Node, cwd: Path, trash: Path, name: string, arg: PathArg, resolve: bool)
    requires RoundTripConditions(fs, cwd, trash, name, arg, resolve)
    ensures RmOneSteps(fs, cwd, trash + [name], arg, resolve).Ok?
    ensures Lookup(RmOneSteps(fs, cwd, trash + [name], arg, resolve).value, Mirror(cwd, arg, resolve)) == None
  {
    UnrelatedBelow(Mirror(cwd, arg, resolve), trash, [name]);
    RmOneTree(fs, cwd, trash, name, arg, resolve, Mirror(cwd, arg, resolve));
  }

  /** restore of the group rm's steps made: the file comes back at its mirror path and the group is gone. */
  lemma RestoreAfterRmSteps(fs: Node, cwd: Path, trash: Path, name: string, arg: PathArg, resolve: bool)
    requires RoundTripConditions(fs, cwd, trash, name, arg, resolve)
    ensures RmOneSteps(fs, cwd, trash + [name], arg, resolve).Ok?
    ensures var src, mirror := Abs(cwd, arg), Mirror(cwd, arg, resolve);
            var back := RestoreCmd.RestoreRun(RmOneSteps(fs, cwd, trash + [name], arg, resolve).value, trash, [name]);
            back.status == RestoreCmd.Done &&
            Lookup(back.fs, mirror) == Lookup(fs, src) &&
            Lookup(back.fs, trash + [name]) == None &&
            (mirror != src ==> Lookup(back.fs, src) == None)
  {
    var src, mirror := Abs(cwd, arg), Mirror(cwd, arg, resolve);
    UnrelatedBelow(mirror, trash, [name]);
    UnrelatedBelow(src, trash, [name]);
    RmOneTree(fs, cwd, trash, name, arg, resolve, []);
    var t := RmOneSteps(fs, cwd, trash + [name], arg, resolve).value;
    RmKeepsTrash(fs, cwd, trash, name, arg, resolve);
    RmKeepsRestoreRoot(fs, cwd, trash, name, arg, resolve);
    RmLeavesMirrorFree(fs, cwd, trash, name, arg, resolve);
    RestoreOne(t, trash, name, mirror, Lookup(fs, src).value, src);
  }

  /**
   * rm of one file outside the trash, then restore of its group: both
   * complete, the file comes back at its mirror path, the group directory is
   * gone, and when the mirror is not the file's own path that path stays empty.
   */
  lemma RmThenRestore(fs: Node, cwd: Path, trash: Path, timestamp: string, nanoTime: Int64, arg: PathArg, resolve: bool)
    requires RoundTripConditions(fs, cwd, trash, InstanceName(timestamp, nanoTime), arg, resolve)
    ensures var container := trash + [InstanceName(timestamp, nanoTime)];
            var src, mirror := Abs(cwd, arg), Mirror(cwd, arg, resolve);
            var out := RemoveRun(fs, cwd, trash, timestamp, nanoTime, [arg], resolve);
            var back := RestoreCmd.RestoreRun(out.fs, trash, [InstanceName(timestamp, nanoTime)]);
            out.status == Done(container) && back.status == RestoreCmd.Done &&
            Lookup(back.fs, mirror) == Lookup(fs, src) &&
            Lookup(back.fs, container) == None &&
            (mirror != src ==> Lookup(back.fs, src) == None)
  {
    RestoreAfterRmSteps(fs, cwd, trash, InstanceName(timestamp, nanoTime), arg, resolve);
    RmOneDone(fs, cwd, trash, timestamp, nanoTime, arg, resolve);
  }

  /**
   * With the argument made absolute, rm followed by restore puts the file
   * back where it was, provided its directory is one the restore root check accepts.
   */
  lemma RmRestoresOriginalPath(fs: Node, cwd: Path, trash: Path, timestamp: string, nanoTime: Int64, arg: PathArg)
    requires |arg.segs| > 0
    requires IsFileAt(fs, Abs(cwd, arg))
    requires UsableDirAt(fs, trash)
    requires Lookup(fs, trash + [InstanceName(timestamp, nanoTime)]).None?
    requires Unrelated(Abs(cwd, arg), trash)
    requires UsableDirAt(fs, Parent(Abs(cwd, arg)))
    ensures var out := Rm(fs, cwd, trash, timestamp, nanoTime, [arg]);
            var back := RestoreCmd.RestoreRun(out.fs, trash, [InstanceName(timestamp, nanoTime)]);
            out.status.Done? && back.status == RestoreCmd.Done &&
            Lookup(back.fs, Abs(cwd, arg)) == Lookup(fs, Abs(cwd, arg)) &&
            Lookup(back.fs, trash + [InstanceName(timestamp, nanoTime)]) == None
  {
    assert Mirror(cwd, arg, true) == Abs(cwd, arg);
    RmThenRestore(fs, cwd, trash, timestamp, nanoTime, arg, true);
  }

  /**
   * As written, rm mirrors a relative argument without the working directory,
   * so restore puts the file at the argument taken from `/`, and its real
   * place stays empty.
   */
  lemma RmAsWrittenMisplacesRelative(fs: Node, cwd: Path, trash: Path, timestamp: string, nanoTime: Int64, arg: PathArg)
    requires |arg.segs| > 0 && !arg.absolute && |cwd| > 0
    requires IsFileAt(fs, cwd + arg.segs)
    requires UsableDirAt(fs, trash)
    requires Lookup(fs, trash + [InstanceName(timestamp, nanoTime)]).None?
    requires Unrelated(cwd + arg.segs, trash) && Unrelated(arg.segs, trash)
    requires UsableDirAt(fs, Parent(arg.segs))
    requires Lookup(fs, arg.segs) == None && Unrelated(arg.segs, cwd + arg.segs)
    ensures var out := RmAsWritten(fs, cwd, trash, timestamp, nanoTime, [arg]);
            var back := RestoreCmd.RestoreRun(out.fs, trash, [InstanceName(timestamp, nanoTime)]);
            out.status.Done? && back.status == RestoreCmd.Done &&
            Lookup(back.fs, arg.segs) == Lookup(fs, cwd + arg.segs) &&
            Lookup(back.fs, cwd + arg.segs) == None
  {
    RmThenRestore(fs, cwd, trash, timestamp, nanoTime, arg, false);
  }

  /** A tree where that happens: `/home/f` removed as `f` from `/home` comes back as `/f`. */
  lemma RelativeArgumentComesBackAtRoot(timestamp: string, nanoTime: Int64)
    ensures var fs := Dir(493, [Entry("home", Dir(493, [Entry("f", File("data"))])), Entry("trash", Dir(448, []))]);
            var out := RmAsWritten(fs, ["home"], ["trash"], timestamp, nanoTime, [PathArg(false, ["f"])]);
            var back := RestoreCmd.RestoreRun(out.fs, ["trash"], [InstanceName(timestamp, nanoTime)]);
            back.status == RestoreCmd.Done &&
            Lookup(back.fs, ["f"]) == Some(File("data")) &&
            Lookup(back.fs, ["home", "f"]) == None
  {
    var home := Dir(493, [Entry("f", File("data"))]);
    var fs := Dir(493, [Entry("home", home), Entry("trash", Dir(448, []))]);
    var arg := PathArg(false, ["f"]);
    assert ["home"] + ["f"] == ["home", "f"];
    IndexOfIs(fs.entries, "home", 0);
    IndexOfIs(fs.entries, "trash", 1);
    IndexOfIs(fs.entries, "f", -1);
    IndexOfIs(home.entries, "f", 0);
    assert Lookup(fs, ["home", "f"]) == Some(File("data"));
    assert Lookup(fs, ["trash"]) == Some(Dir(448, []));
    assert Lookup(fs, ["f"]) == None;
    assert Lookup(fs, ["trash", InstanceName(timestamp, nanoTime)]) == None;
    assert Parent(["f"]) == [];
    RmAsWrittenMisplacesRelative(fs, ["home"], ["trash"], timestamp, nanoTime, arg);
  }

  /** The same tree with the argument made absolute: `f` removed from `/home` comes back as `/home/f`. */
  lemma RelativeArgumentComesBackHome(timestamp: string, nanoTime: Int64)
    ensures var fs := Dir(493, [Entry("home", Dir(493, [Entry("f", File("data"))])), Entry("trash", Dir(448, []))]);
            var out := Rm(fs, ["home"], ["trash"], timestamp, nanoTime, [PathArg(false, ["f"])]);
            var back := RestoreCmd.RestoreRun(out.fs, ["trash"], [InstanceName(timestamp, nanoTime)]);
            back.status == RestoreCmd.Done &&
            Lookup(back.fs, ["home", "f"]) == Some(File("data"))
  {
    var home := Dir(493, [Entry("f", File("data"))]);
    var fs := Dir(493, [Entry("home", home), Entry("trash", Dir(448, []))]);
    var arg := PathArg(false, ["f"]);
    assert ["home"] + ["f"] == ["home", "f"];
    IndexOfIs(fs.entries, "home", 0);
    IndexOfIs(fs.entries, "trash", 1);
    IndexOfIs(home.entries, "f", 0);
    assert Lookup(fs, ["home", "f"]) == Some(File("data"));
    assert Lookup(fs, ["home"]) == Some(home);
    assert Lookup(fs, ["trash"]) == Some(Dir(448, []));
    assert Lookup(fs, ["trash", InstanceName(timestamp, nanoTime)]) == None;
    assert Parent(["home", "f"]) == ["home"];
    RmRestoresOriginalPath(fs, ["home"], ["trash"], timestamp, nanoTime, arg);
  }
}

=== FILE: remove_cmd.dfy ===
/**
 * The `rm` command (cmd/rm.go): every argument is checked to exist, a fresh
 * deletion-group directory is created in the trash, and each argument is
 * moved below it at its own path, the "mirror". There is no rollback: a
 * failure leaves the arguments already moved in the trash.
 */
module RemoveCmd {
  import opened Results
  import opened FileTree
  import opened DeletionIds
  import opened Common
  import opened Sequential

  /** A command-line path, cleaned into segment names; `.` is the empty list, and `..` segments are outside the model. */
  datatype PathArg = PathArg(absolute: bool, segs: seq<string>)

  /** Where the argument is: `os.Stat` and `os.Rename` resolve a relative name against the working directory. */
  function Abs(cwd: Path, arg: PathArg): Path {
    if arg.absolute then arg.segs else cwd + arg.segs
  }

  /**
   * The path the argument gets below the deletion-group directory. The code
   * joins the argument as given (`resolve` false); a path made absolute first
   * (`resolve` true) is what restoring needs.
   */
  function Mirror(cwd: Path, arg: PathArg, resolve: bool): Path {
    if resolve then Abs(cwd, arg) else arg.segs
  }

  datatype Status =
    | Done(container: Path)
    | ShowHelp                        // no arguments
    | NotAPath(arg: PathArg)          // an argument that does not exist
    | TrashUnusable(reason: EnsureError)
    | Failed(error: FsError)          // mkdir or rename failed part-way

  datatype Outcome = Outcome(fs: Node, status: Status)

  /** `ensureTrashDirExists` as cmd/rm.go writes it, with the mode string compared directly. */
  function EnsureTrashDirExists(fs: Node, trash: Path): (r: Result<Node, EnsureError>)
    ensures r.Ok? <==> (IsDirAt(fs, trash) && Lookup(fs, trash).value.perm >= 448) || Stat(fs, trash).StatMissing?
    ensures r.Ok? && IsDirAt(fs, trash) ==> r.value == fs
  {
    match Stat(fs, trash)
    case StatDir(perm) =>
      OwnerRwxBits(perm);
      if ModeString(perm)[1..4] == "rwx" then Ok(fs) else Err(MissingRwx)
    case StatFile => Err(NotADir)
    case StatMissing =>
      CreateMissingDir(fs, trash);
      (match MkdirAll(fs, trash)
       case Ok(fs') => Ok(fs')
       case Err(e) => Err(CreateFailed(e)))
    case StatNotDir => Err(StatFailed)
  }

  /** The older check in cmd/rm.go decides exactly as `ensureDirExists` of cmd/common.go. */
  lemma EnsureTrashDirExistsAgrees(fs: Node, trash: Path)
    ensures EnsureTrashDirExists(fs, trash) == EnsureDirExists(fs, trash)
  {
    match Stat(fs, trash)
    case StatDir(perm) =>
      assert OwnerRwx(perm) <==> ModeString(perm)[1..4] == "rwx";
    case StatFile =>
    case StatMissing =>
    case StatNotDir =>
  }

  /** The first argument that `os.Stat` reports missing. */
  function FirstMissing(fs: Node, cwd: Path, args: seq<PathArg>): (r: Option<PathArg>)
    ensures r.Some? ==> r.value in args && Stat(fs, Abs(cwd, r.value)).StatMissing?
    ensures r.None? ==> forall i :: 0 <= i < |args| ==> !Stat(fs, Abs(cwd, args[i])).StatMissing?
  {
    if |args| == 0 then None
    else if Stat(fs, Abs(cwd, args[0])).StatMissing? then Some(args[0])
    else FirstMissing(fs, cwd, args[1..])
  }

  /** One turn of the move loop: create the mirror's parent below the container, then rename into it. */
  function MoveArg(fs: Node, cwd: Path, container: Path, arg: PathArg, resolve: bool): Result<Node, FsError> {
    var mirror := Mirror(cwd, arg, resolve);
    if |arg.segs| == 0 then Err(Exists)  // `.` or `/`: the new path is the group directory itself
    else match MkdirAll(fs, container + Parent(mirror))
      case Err(e) => Err(e)
      case Ok(fs1) => Rename(fs1, Abs(cwd, arg), container + mirror)
  }

  function MoveStep(cwd: Path, container: Path, resolve: bool): (Node, PathArg) -> Result<Node, FsError> {
    (fs, arg) => MoveArg(fs, cwd, container, arg, resolve)
  }

  /** The move loop: stops at the first failure and keeps what was moved before it. */
  function MoveAll(fs: Node, cwd: Path, container: Path, args: seq<PathArg>, resolve: bool): (r: Outcome)
    ensures r.status == Done(container) || r.status.Failed?
  {
    var stop := RunAll(fs, args, MoveStep(cwd, container, resolve));
    match stop.error
    case None => Outcome(stop.state, Done(container))
    case Some(e) => Outcome(stop.state, Failed(e))
  }

  /** The tree after the first `k` arguments were moved, one after another. */
  function Moved(fs: Node, cwd: Path, container: Path, args: seq<PathArg>, k: nat, resolve: bool): Result<Node, FsError>
    requires k <= |args|
  {
    RunFirst(fs, args, k, MoveStep(cwd, container, resolve))
  }

  /**
   * Every step of rm past the argument check succeeds: the trash check, the
   * creation of the group directory `container`, and the move of each
   * argument in turn.
   */
  predicate AllArgsMove(fs: Node, cwd: Path, trash: Path, container: Path, args: seq<PathArg>, resolve: bool)
  {
    EnsureDirExists(fs, trash).Ok? &&
    var fs1 := EnsureDirExists(fs, trash).value;
    MkdirAll(fs1, container).Ok? &&
    Moved(MkdirAll(fs1, container).value, cwd, container, args, |args|, resolve).Ok?
  }

  /** The tree once every argument was moved into the group directory. */
  function ArgsMovedTree(fs: Node, cwd: Path, trash: Path, container: Path, args: seq<PathArg>, resolve: bool): Node
    requires AllArgsMove(fs, cwd, trash, container, args, resolve)
  {
    var fs1 := EnsureDirExists(fs, trash).value;
    Moved(MkdirAll(fs1, container).value, cwd, container, args, |args|, resolve).value
  }

  /**
   * How far rm got when it failed with `e` leaving `t`: the trash check had
   * passed, and either creating the group directory failed, or some argument
   * `k` failed to move after the first `k` had been moved (no rollback).
   */
  predicate FailedAfterTrashCheck(fs: Node, cwd: Path, trash: Path, container: Path, args: seq<PathArg>, resolve: bool,
                                  t: Node, e: FsError)
  {
    EnsureDirExists(fs, trash).Ok? &&
    var fs1 := EnsureDirExists(fs, trash).value;
    (t == fs1 && MkdirAll(fs1, container) == Err(e)) ||
    (MkdirAll(fs1, container).Ok? &&
     exists k :: 0 <= k < |args| && Moved(MkdirAll(fs1, container).value, cwd, container, args, k, resolve) == Ok(t) &&
                 MoveArg(t, cwd, container, args[k], resolve) == Err(e))
  }

  /**
   * rm `Run`. `timestamp` and `nanoTime` stand for the clock readings of
   * `genDeletionInstanceName`; `resolve` selects the mirror (see `Mirror`).
   * It completes exactly when no argument is missing and every later step
   * succeeds; a failure part-way keeps the moves made before it.
   */
  function RemoveRun(fs: Node, cwd: Path, trash: Path, timestamp: string, nanoTime: Int64,
                     args: seq<PathArg>, resolve: bool): (r: Outcome)
    ensures |args| == 0 ==> r == Outcome(fs, ShowHelp)
    ensures r.status.ShowHelp? <==> |args| == 0
    ensures r.status.NotAPath? <==> |args| > 0 && exists i :: 0 <= i < |args| && Stat(fs, Abs(cwd, args[i])).StatMissing?
    ensures r.status.NotAPath? ==> r.fs == fs && r.status.arg in args
    ensures r.status.TrashUnusable? ==> r.fs == fs && EnsureDirExists(fs, trash) == Err(r.status.reason)
    ensures |args| > 0 && (forall i :: 0 <= i < |args| ==> !Stat(fs, Abs(cwd, args[i])).StatMissing?) &&
            EnsureDirExists(fs, trash).Err? ==>
              r == Outcome(fs, TrashUnusable(EnsureDirExists(fs, trash).error))
    ensures r.status.Done? ==> r.status.container == trash + [InstanceName(timestamp, nanoTime)]
    ensures var container := trash + [InstanceName(timestamp, nanoTime)];
            r.status.Done? <==>
              |args| > 0 && (forall i :: 0 <= i < |args| ==> !Stat(fs, Abs(cwd, args[i])).StatMissing?) &&
              AllArgsMove(fs, cwd, trash, container, args, resolve)
    ensures var container := trash + [InstanceName(timestamp, nanoTime)];
            r.status.Done? ==> r.fs == ArgsMovedTree(fs, cwd, trash, container, args, resolve)
    ensures var container := trash + [InstanceName(timestamp, nanoTime)];
            r.status.Failed? <==>
              |args| > 0 && (forall i :: 0 <= i < |args| ==> !Stat(fs, Abs(cwd, args[i])).StatMissing?) &&
              EnsureDirExists(fs, trash).Ok? && !AllArgsMove(fs, cwd, trash, container, args, resolve)
    ensures var container := trash + [InstanceName(timestamp, nanoTime)];
            r.status.Failed? ==> FailedAfterTrashCheck(fs, cwd, trash, container, args, resolve, r.fs, r.status.error)
  {
    if |args| < 1 then Outcome(fs, ShowHelp)
    else match FirstMissing(fs, cwd, args)
      case Some(a) => Outcome(fs, NotAPath(a))
      case None =>
        EnsureTrashDirExistsAgrees(fs, trash);
        match EnsureTrashDirExists(fs, trash)
        case Err(e) => Outcome(fs, TrashUnusable(e))
        case Ok(fs1) =>
          var container := trash + [InstanceName(timestamp, nanoTime)];
          match MkdirAll(fs1, container)
          case Err(e) => Outcome(fs1, Failed(e))
          case Ok(fs2) =>
            MoveAllDone(fs2, cwd, container, args, resolve);
            MoveAllNoRollback(fs2, cwd, container, args, resolve);
            MoveAll(fs2, cwd, container, args, resolve)
  }

  /** rm as cmd/rm.go writes it: arguments are mirrored as given. */
  function RmAsWritten(fs: Node, cwd: Path, trash: Path, timestamp: string, nanoTime: Int64, args: seq<PathArg>): Outcome {
    RemoveRun(fs, cwd, trash, timestamp, nanoTime, args, false)
  }

  /** rm with every argument mirrored at its absolute path, so that restore finds the original location. */
  function Rm(fs: Node, cwd: Path, trash: Path, timestamp: string, nanoTime: Int64, args: seq<PathArg>): Outcome {
    RemoveRun(fs, cwd, trash, timestamp, nanoTime, args, true)
  }

  // ---------------------------------------------------------------------
  // Properties
  // ---------------------------------------------------------------------

  /** The move loop completes exactly when all arguments can be moved one after another, and then leaves their result. */
  lemma MoveAllDone(fs: Node, cwd: Path, container: Path, args: seq<PathArg>, resolve: bool)
    ensures MoveAll(fs, cwd, container, args, resolve).status.Done? <==> Moved(fs, cwd, container, args, |args|, resolve).Ok?
    ensures MoveAll(fs, cwd, container, args, resolve).status.Done? ==>
              MoveAll(fs, cwd, container, args, resolve).fs == Moved(fs, cwd, container, args, |args|, resolve).value
  {
    RunAllCompletes(fs, args, MoveStep(cwd, container, resolve));
  }

  /**
   * No rollback: when the move loop fails, it stopped at some argument `k`
   * whose move failed, leaving the tree as the first `k` moves made it.
   */
  lemma MoveAllNoRollback(fs: Node, cwd: Path, container: Path, args: seq<PathArg>, resolve: bool)
    ensures var r := MoveAll(fs, cwd, container, args, resolve);
            r.status.Failed? ==>
              exists k :: 0 <= k < |args| && Moved(fs, cwd, container, args, k, resolve) == Ok(r.fs) &&
                          MoveArg(r.fs, cwd, container, args[k], resolve) == Err(r.status.error)
  {
    RunAllNoRollback(fs, args, MoveStep(cwd, container, resolve));
  }

  /** Moving `k + 1` arguments is moving `k` of them and then argument `k`. */
  lemma MovedNext(fs: Node, cwd: Path, container: Path, args: seq<PathArg>, k: nat, resolve: bool)
    requires k < |args| && Moved(fs, cwd, container, args, k + 1, resolve).Ok?
    ensures Moved(fs, cwd, container, args, k, resolve).Ok?
    ensures Moved(fs, cwd, container, args, k + 1, resolve) ==
              MoveArg(Moved(fs, cwd, container, args, k, resolve).value, cwd, container, args[k], resolve)
  {
  }

  /**
   * A successful move puts the argument's subtree at `container + mirror`,
   * after which the argument's own path is gone, and leaves every path
   * unrelated to both untouched.
   */
  lemma MoveArgEffect(fs: Node, cwd: Path, container: Path, arg: PathArg, resolve: bool, q: Path)
    requires MoveArg(fs, cwd, container, arg, resolve).Ok?
    requires Abs(cwd, arg) != container + Mirror(cwd, arg, resolve)
    ensures var src, dst := Abs(cwd, arg), container + Mirror(cwd, arg, resolve);
            var r := MoveArg(fs, cwd, container, arg, resolve).value;
            Lookup(fs, src).Some? &&
            Lookup(r, dst) == Lookup(fs, src) &&
            Lookup(r, src) == None &&
            (!(q <= src) && !(src <= q) && !(q <= dst) && !(dst <= q) ==> Lookup(r, q) == Lookup(fs, q))
  {
    var mirror := Mirror(cwd, arg, resolve);
    var dst := container + mirror;
    assert Parent(dst) == container + Parent(mirror);
    MkdirRenameEffect(fs, Abs(cwd, arg), dst, q);
  }

  /** A mirror made absolute never coincides with the argument's own path. */
  lemma ResolvedMirrorDiffers(cwd: Path, trash: Path, name: string, arg: PathArg)
    ensures Abs(cwd, arg) != (trash + [name]) + Mirror(cwd, arg, true)
  {
    assert |(trash + [name]) + Mirror(cwd, arg, true)| > |Abs(cwd, arg)|;
  }
}

=== FILE: restore_cmd.dfy ===
/**
 * The `restore` command (cmd/restore.go): for each deletion group, walk down
 * its directory while a directory holds exactly one entry that is itself a
 * directory; the names passed on the way are the original location. Every
 * entry of the directory where the walk stops is moved back there, and only
 * after all moves succeeded is the group's directory removed.
 */
module RestoreCmd {
  import opened Results
  import opened FileTree
  import opened Common
  import opened Sequential

  /** Where the walk stops: not exactly one entry, or one entry that is no directory. */
  predicate Stops(es: seq<Entry>) {
    !(|es| == 1 && es[0].node.Dir?)
  }

  /** The walk over the subtree of a deletion group; each step reads one directory. */
  function Walk(n: Node): Result<Path, FsError>
    decreases n
  {
    match n
    case File(_) => Err(NotADirectory)
    case Dir(perm, es) =>
      if !OwnerCanRead(perm) then Err(PermissionDenied)
      else if Stops(es) then Ok([])
      else
        assert es[0] in es;
        match Walk(es[0].node)
        case Err(e) => Err(e)
        case Ok(segs) => Ok([es[0].name] + segs)
  }

  /** A readable directory at `p`, as the walk needs it. */
  predicate ReadableDirAt(n: Node, p: Path) {
    IsDirAt(n, p) && OwnerCanRead(Lookup(n, p).value.perm)
  }

  /**
   * What the walk promises, stated over paths: every directory on the way is
   * readable, each but the last holds exactly the next one, and the last stops.
   */
  predicate IsWalk(n: Node, segs: Path) {
    (forall k :: 0 <= k <= |segs| ==> ReadableDirAt(n, segs[..k])) &&
    (forall k :: 0 <= k < |segs| ==> |Lookup(n, segs[..k]).value.entries| == 1 &&
                                      Lookup(n, segs[..k]).value.entries[0].name == segs[k]) &&
    ReadableDirAt(n, segs) && Stops(Lookup(n, segs).value.entries)
  }

  /** One step down into the only entry of a directory. */
  lemma StepDown(n: Node, rest: Path)
    requires n.Dir? && |n.entries| == 1
    ensures Lookup(n, [n.entries[0].name] + rest) == Lookup(n.entries[0].node, rest)
  {
    var p := [n.entries[0].name] + rest;
    IndexOfIs(n.entries, n.entries[0].name, 0);
    assert p[0] == n.entries[0].name && p[1..] == rest;
  }

  /** Below a readable directory holding one directory, the path description moves one level down. */
  lemma IsWalkStep(n: Node, rest: Path)
    requires n.Dir? && OwnerCanRead(n.perm) && |n.entries| == 1
    ensures IsWalk(n, [n.entries[0].name] + rest) <==> IsWalk(n.entries[0].node, rest)
  {
    var e := n.entries[0];
    var segs := [e.name] + rest;
    forall k | 0 < k <= |segs| ensures Lookup(n, segs[..k]) == Lookup(e.node, rest[..k - 1]) {
      assert segs[..k] == [e.name] + rest[..k - 1];
      StepDown(n, rest[..k - 1]);
    }
    assert segs[..|segs|] == segs && rest[..|rest|] == rest && segs[..0] == [];
    if IsWalk(e.node, rest) {
      assert forall k :: 0 < k <= |segs| ==> ReadableDirAt(n, segs[..k]) by {
        forall k | 0 < k <= |segs| ensures ReadableDirAt(n, segs[..k]) {
          assert ReadableDirAt(e.node, rest[..k - 1]);
        }
      }
      forall k | 0 < k < |segs|
        ensures |Lookup(n, segs[..k]).value.entries| == 1 && Lookup(n, segs[..k]).value.entries[0].name == segs[k]
      {
        assert segs[k] == rest[k - 1];
      }
    }
    if IsWalk(n, segs) {
      forall k | 0 <= k <= |rest| ensures ReadableDirAt(e.node, rest[..k]) {
        assert ReadableDirAt(n, segs[..k + 1]);
      }
      forall k | 0 <= k < |rest|
        ensures |Lookup(e.node, rest[..k]).value.entries| == 1 && Lookup(e.node, rest[..k]).value.entries[0].name == rest[k]
      {
        assert segs[k + 1] == rest[k];
        assert Lookup(n, segs[..k + 1]) == Lookup(e.node, rest[..k]);
      }
    }
  }

  /** The walk returns `segs` exactly when `segs` satisfies the path description; so the answer is unique. */
  lemma {:induction false} WalkIsWalk(n: Node, segs: Path)
    ensures Walk(n) == Ok(segs) <==> IsWalk(n, segs)
    decreases n
  {
    assert segs[..0] == [];
    match n
    case File(_) =>
    case Dir(perm, es) =>
      if OwnerCanRead(perm) {
        if Stops(es) {
          if |segs| > 0 && IsWalk(n, segs) {
            assert segs[..1] == [es[0].name] + [];
            StepDown(n, []);
          }
        } else {
          var e := es[0];
          assert e in es;
          if |segs| > 0 && segs[0] == e.name {
            var rest := segs[1..];
            assert segs == [e.name] + rest;
            WalkIsWalk(e.node, rest);
            IsWalkStep(n, rest);
          }
        }
      }
  }

  /** A walk reads only directories, so the only error it meets on a directory is a denied read. */
  lemma {:induction false} WalkFailsOnlyOnPermission(n: Node)
    requires n.Dir?
    ensures Walk(n).Err? ==> Walk(n) == Err(PermissionDenied)
    decreases n
  {
    if OwnerCanRead(n.perm) && !Stops(n.entries) {
      assert n.entries[0] in n.entries;
      WalkFailsOnlyOnPermission(n.entries[0].node);
    }
  }

  /** A walk fails on a file it is started on, or on a directory it may not read. */
  lemma WalkErrors(n: Node)
    ensures Walk(n).Err? ==> Walk(n) == Err(if n.File? then NotADirectory else PermissionDenied)
  {
    if n.Dir? {
      WalkFailsOnlyOnPermission(n);
    }
  }

  /** The group directory a single item was mirrored into walks back to the item's parent path. */
  lemma {:induction false} WalkChain(segs: Path, leaf: seq<Entry>)
    requires Stops(leaf)
    ensures Walk(Chain(segs, Dir(CreatedDirPerm, leaf))) == Ok(segs)
    decreases |segs|
  {
    if |segs| > 0 {
      WalkChain(segs[1..], leaf);
      assert [segs[0]] + segs[1..] == segs;
    }
  }

  // ---------------------------------------------------------------------
  // The restore root
  // ---------------------------------------------------------------------

  /** `path.Join` of directory names, which are never empty and never hold `/`. */
  function Join(segs: seq<string>): string {
    if |segs| == 0 then "" else if |segs| == 1 then segs[0] else segs[0] + "/" + Join(segs[1..])
  }

  /** The restore root as the code prints it: `/` followed by the joined names. */
  function RootString(segs: seq<string>): string {
    "/" + Join(segs)
  }

  predicate SegmentName(s: string) {
    |s| > 0 && '/' !in s
  }

  /** Splits a string at every `/`. */
  function Split(s: string): seq<string>
    decreases |s|
  {
    if '/' !in s then [s]
    else
      var i := FirstSlash(s);
      [s[..i]] + Split(s[i + 1..])
  }

  function FirstSlash(s: string): (i: nat)
    requires '/' in s
    ensures i < |s| && s[i] == '/' && '/' !in s[..i]
  {
    if s[0] == '/' then 0 else 1 + FirstSlash(s[1..])
  }

  /** Splitting at the first `/` after a name without one. */
  lemma SplitAfterName(head: string, tail: string)
    requires '/' !in head
    ensures Split(head + "/" + tail) == [head] + Split(tail)
  {
    var j := head + "/" + tail;
    assert j[|head|] == '/';
    assert j[..|head|] == head;
    assert FirstSlash(j) == |head|;
    assert j[|head| + 1..] == tail;
  }

  /** The root string names the walked path: dropping its leading `/` and splitting gives the segments back. */
  lemma {:induction false} RootStringSplits(segs: seq<string>)
    requires |segs| > 0 && forall i :: 0 <= i < |segs| ==> SegmentName(segs[i])
    ensures RootString(segs)[0] == '/' && Split(RootString(segs)[1..]) == segs
    decreases |segs|
  {
    assert RootString(segs)[1..] == Join(segs);
    if |segs| == 1 {
      assert Join(segs) == segs[0];
    } else {
      RootStringSplits(segs[1..]);
      assert RootString(segs[1..])[1..] == Join(segs[1..]);
      assert SegmentName(segs[0]);
      SplitAfterName(segs[0], Join(segs[1..]));
      assert segs == [segs[0]] + segs[1..];
    }
  }

  // ---------------------------------------------------------------------
  // Restoring one group
  // ---------------------------------------------------------------------

  datatype Status =
    | Done
    | ShowHelp                          // no arguments
    | TrashUnusable(reason: EnsureError)
    | ReadFailed(error: FsError)        // a directory of the group could not be read
    | RootUnusable(reason: EnsureError) // the restore root is no usable directory
    | MoveFailed(error: FsError)        // some items may already be back; the group stays

  datatype Outcome = Outcome(fs: Node, status: Status)

  function ItemStep(from: Path, root: Path): (Node, string) -> Result<Node, FsError> {
    (fs, name) => Rename(fs, from + [name], root + [name])
  }

  /** The move loop: item after item, `from + [name]` to `root + [name]`, stopping at the first failure. */
  function MoveItems(fs: Node, from: Path, root: Path, names: seq<string>): (r: Outcome)
    ensures r.status == Done || r.status.MoveFailed?
  {
    var stop := RunAll(fs, names, ItemStep(from, root));
    match stop.error
    case None => Outcome(stop.state, Done)
    case Some(e) => Outcome(stop.state, MoveFailed(e))
  }

  /** The tree after the first `k` items were moved. */
  function MovedItems(fs: Node, from: Path, root: Path, names: seq<string>, k: nat): Result<Node, FsError>
    requires k <= |names|
  {
    RunFirst(fs, names, k, ItemStep(from, root))
  }

  /**
   * Every step of restoring the group directory `start` succeeds: the walk to
   * its leaf, the check of the restore root, the leaf's listing, and the
   * rename of each listed item to the restore root in turn.
   */
  predicate AllItemsMove(fs: Node, start: Path)
  {
    Lookup(fs, start).Some? && Walk(Lookup(fs, start).value).Ok? &&
    var segs := Walk(Lookup(fs, start).value).value;
    EnsureDirExists(fs, segs).Ok? &&
    var fs1 := EnsureDirExists(fs, segs).value;
    ReadDir(fs1, start + segs).Ok? &&
    var names := Names(ReadDir(fs1, start + segs).value);
    MovedItems(fs1, start + segs, segs, names, |names|).Ok?
  }

  /** The tree once every item of the group directory `start` was moved, before the group is removed. */
  function ItemsMovedTree(fs: Node, start: Path): Node
    requires AllItemsMove(fs, start)
  {
    var segs := Walk(Lookup(fs, start).value).value;
    var fs1 := EnsureDirExists(fs, segs).value;
    var names := Names(ReadDir(fs1, start + segs).value);
    MovedItems(fs1, start + segs, segs, names, |names|).value
  }

  /**
   * Restores one deletion group, `trash + [dirName]`. It completes exactly
   * when every step succeeds, and only then removes the group directory,
   * from the tree the moves left.
   */
  function RestoreGroup(fs: Node, trash: Path, dirName: string): (r: Outcome)
    ensures r.status.Done? <==> AllItemsMove(fs, trash + [dirName])
    ensures r.status.Done? ==> r.fs == RemoveAt(ItemsMovedTree(fs, trash + [dirName]), trash + [dirName])
    ensures r.status.Done? ==> Lookup(r.fs, trash + [dirName]) == None
    ensures r.status.Done? || r.status.ReadFailed? || r.status.RootUnusable? || r.status.MoveFailed?
    ensures Lookup(fs, trash + [dirName]).None? ==> r == Outcome(fs, ReadFailed(NoEntry))
    ensures Lookup(fs, trash + [dirName]).Some? && Walk(Lookup(fs, trash + [dirName]).value).Err? ==>
              r == Outcome(fs, ReadFailed(PermissionDenied)) || r == Outcome(fs, ReadFailed(NotADirectory))
  {
    var start := trash + [dirName];
    match Lookup(fs, start)
    case None => Outcome(fs, ReadFailed(NoEntry))
    case Some(group) =>
      match Walk(group)
      case Err(e) =>
        WalkErrors(group);
        Outcome(fs, ReadFailed(e))
      case Ok(segs) =>
        match EnsureDirExists(fs, segs)
        case Err(e) => Outcome(fs, RootUnusable(e))
        case Ok(fs1) =>
          var leaf := start + segs;
          match ReadDir(fs1, leaf)
          case Err(e) => Outcome(fs1, ReadFailed(e))
          case Ok(items) =>
            MoveItemsDone(fs1, leaf, segs, Names(items));
            var moved := MoveItems(fs1, leaf, segs, Names(items));
            if moved.status.Done? then
              LookupRemoveAt(moved.fs, start, start);
              Outcome(RemoveAt(moved.fs, start), Done)
            else moved
  }

  /** Restores the groups one after another and stops at the first that does not complete. */
  function RestoreAll(fs: Node, trash: Path, dirNames: seq<string>): (r: Outcome)
    ensures r.status.Done? || r.status.ReadFailed? || r.status.RootUnusable? || r.status.MoveFailed?
    decreases |dirNames|
  {
    if |dirNames| == 0 then Outcome(fs, Done)
    else
      var one := RestoreGroup(fs, trash, dirNames[0]);
      if one.status.Done? then RestoreAll(one.fs, trash, dirNames[1..]) else one
  }

  /** The tree after the first `k` groups were restored one after another, or `None` when one of them did not complete. */
  function RestoredGroups(fs: Node, trash: Path, dirNames: seq<string>, k: nat): Option<Node>
    requires k <= |dirNames|
    decreases k
  {
    if k == 0 then Some(fs)
    else
      var one := RestoreGroup(fs, trash, dirNames[0]);
      if one.status.Done? then RestoredGroups(one.fs, trash, dirNames[1..], k - 1) else None
  }

  /**
   * restore `Run`. `dirNames` are the group directories the arguments name;
   * turning ids into them happens in code that is not part of this model.
   */
  function RestoreRun(fs: Node, trash: Path, dirNames: seq<string>): (r: Outcome)
    ensures |dirNames| == 0 ==> r == Outcome(fs, ShowHelp)
    ensures r.status.ShowHelp? <==> |dirNames| == 0
    ensures r.status.TrashUnusable? <==> |dirNames| > 0 && EnsureDirExists(fs, trash).Err?
    ensures r.status.TrashUnusable? ==> r.fs == fs && EnsureDirExists(fs, trash) == Err(r.status.reason)
  {
    if |dirNames| < 1 then Outcome(fs, ShowHelp)
    else match EnsureDirExists(fs, trash)
      case Err(e) => Outcome(fs, TrashUnusable(e))
      case Ok(fs1) => RestoreAll(fs1, trash, dirNames)
  }

  // ---------------------------------------------------------------------
  // Properties
  // ---------------------------------------------------------------------

  /** The item loop completes exactly when all items can be moved one after another, and then leaves their result. */
  lemma MoveItemsDone(fs: Node, from: Path, root: Path, names: seq<string>)
    ensures MoveItems(fs, from, root, names).status.Done? <==> MovedItems(fs, from, root, names, |names|).Ok?
    ensures MoveItems(fs, from, root, names).status.Done? ==>
              MoveItems(fs, from, root, names).fs == MovedItems(fs, from, root, names, |names|).value
  {
    RunAllCompletes(fs, names, ItemStep(from, root));
  }

  /**
   * No rollback: when the item loop fails, it stopped at some item `k` whose
   * rename failed, leaving the tree as the first `k` renames made it.
   */
  lemma MoveItemsNoRollback(fs: Node, from: Path, root: Path, names: seq<string>)
    ensures var r := MoveItems(fs, from, root, names);
            r.status.MoveFailed? ==>
              exists k :: 0 <= k < |names| && MovedItems(fs, from, root, names, k) == Ok(r.fs) &&
                          Rename(r.fs, from + [names[k]], root + [names[k]]) == Err(r.status.error)
  {
    RunAllNoRollback(fs, names, ItemStep(from, root));
  }

  /** How far the restore of the group directory `start` got before it failed, given the walked path. */
  predicate FailedAfterWalk(fs: Node, start: Path, segs: Path, t: Node)
  {
    EnsureDirExists(fs, segs).Ok? &&
    var fs1 := EnsureDirExists(fs, segs).value;
    t == fs1 ||
    (ReadDir(fs1, start + segs).Ok? &&
     var names := Names(ReadDir(fs1, start + segs).value);
     exists k :: 0 <= k < |names| && MovedItems(fs1, start + segs, segs, names, k) == Ok(t))
  }

  /**
   * The group directory is removed only when every item was moved: a restore
   * of a group that fails leaves the tree as it was, as the restore-root check
   * left it, or as the moves made before the failing one left it.
   */
  lemma RestoreGroupRemovesOnlyAfterMoves(fs: Node, trash: Path, dirName: string)
    ensures var r := RestoreGroup(fs, trash, dirName);
            var start := trash + [dirName];
            r.status.Done? ==>
              AllItemsMove(fs, start) && Lookup(r.fs, start) == None &&
              r.fs == RemoveAt(ItemsMovedTree(fs, start), start)
    ensures var r := RestoreGroup(fs, trash, dirName);
            var start := trash + [dirName];
            !r.status.Done? ==>
              r.fs == fs ||
              (Lookup(fs, start).Some? && Walk(Lookup(fs, start).value).Ok? &&
               FailedAfterWalk(fs, start, Walk(Lookup(fs, start).value).value, r.fs))
  {
    var r := RestoreGroup(fs, trash, dirName);
    var start := trash + [dirName];
    if !r.status.Done? && Lookup(fs, start).Some? && Walk(Lookup(fs, start).value).Ok? {
      var segs := Walk(Lookup(fs, start).value).value;
      if EnsureDirExists(fs, segs).Ok? {
        var fs1 := EnsureDirExists(fs, segs).value;
        var leaf := start + segs;
        if ReadDir(fs1, leaf).Ok? {
          var names := Names(ReadDir(fs1, leaf).value);
          var moved := MoveItems(fs1, leaf, segs, names);
          assert !moved.status.Done? && r == moved;
          MoveItemsNoRollback(fs1, leaf, segs, names);
          var k :| 0 <= k < |names| && MovedItems(fs1, leaf, segs, names, k) == Ok(r.fs) &&
                   Rename(r.fs, leaf + [names[k]], segs + [names[k]]) == Err(r.status.error);
          assert FailedAfterWalk(fs, start, segs, r.fs);
        } else {
          assert r.fs == fs1;
        }
      } else {
        assert r.fs == fs;
      }
    }
  }

  /**
   * The group loop completes exactly when every group, in order, is restored
   * from the tree the earlier ones left, and then leaves the tree of the last.
   */
  lemma {:induction false} RestoreAllDone(fs: Node, trash: Path, dirNames: seq<string>)
    ensures RestoreAll(fs, trash, dirNames).status.Done? <==> RestoredGroups(fs, trash, dirNames, |dirNames|).Some?
    ensures RestoreAll(fs, trash, dirNames).status.Done? ==>
              RestoreAll(fs, trash, dirNames).fs == RestoredGroups(fs, trash, dirNames, |dirNames|).value
    decreases |dirNames|
  {
    if |dirNames| > 0 {
      var one := RestoreGroup(fs, trash, dirNames[0]);
      RestoreAllStep(fs, trash, dirNames);
      if one.status.Done? {
        RestoreAllDone(one.fs, trash, dirNames[1..]);
      }
    }
  }

  /** One group of the loop: both the loop and `RestoredGroups` continue from its tree, or both stop at it. */
  lemma RestoreAllStep(fs: Node, trash: Path, dirNames: seq<string>)
    requires |dirNames| > 0
    ensures var one := RestoreGroup(fs, trash, dirNames[0]);
            if one.status.Done? then
              RestoreAll(fs, trash, dirNames) == RestoreAll(one.fs, trash, dirNames[1..]) &&
              RestoredGroups(fs, trash, dirNames, |dirNames|) == RestoredGroups(one.fs, trash, dirNames[1..], |dirNames[1..]|)
            else
              RestoreAll(fs, trash, dirNames) == one && RestoredGroups(fs, trash, dirNames, |dirNames|).None?
  {
  }

  /**
   * No rollback across groups: when the loop fails, it stopped at some group
   * `k` whose restore failed, started from the tree in which the first `k`
   * groups had been restored, and its outcome is that group's outcome.
   */
  lemma {:induction false} RestoreAllNoRollback(fs: Node, trash: Path, dirNames: seq<string>)
    ensures var r := RestoreAll(fs, trash, dirNames);
            !r.status.Done? ==>
              exists k :: 0 <= k < |dirNames| && RestoredGroups(fs, trash, dirNames, k).Some? &&
                          RestoreGroup(RestoredGroups(fs, trash, dirNames, k).value, trash, dirNames[k]) == r
    decreases |dirNames|
  {
    var r := RestoreAll(fs, trash, dirNames);
    if |dirNames| > 0 && !r.status.Done? {
      var one := RestoreGroup(fs, trash, dirNames[0]);
      if one.status.Done? {
        var rest := dirNames[1..];
        RestoreAllNoRollback(one.fs, trash, rest);
        var k :| 0 <= k < |rest| && RestoredGroups(one.fs, trash, rest, k).Some? &&
                 RestoreGroup(RestoredGroups(one.fs, trash, rest, k).value, trash, rest[k]) == r;
        assert RestoredGroups(fs, trash, dirNames, k + 1) == RestoredGroups(one.fs, trash, rest, k);
        assert dirNames[k + 1] == rest[k];
      } else {
        assert RestoredGroups(fs, trash, dirNames, 0) == Some(fs);
      }
    }
  }

  /**
   * restore completes exactly when there are group names, the trash check
   * passes, and every named group is restored in turn; it then leaves the
   * tree of the last one.
   */
  lemma RestoreRunDone(fs: Node, trash: Path, dirNames: seq<string>)
    ensures var r := RestoreRun(fs, trash, dirNames);
            r.status.Done? <==>
              |dirNames| > 0 && EnsureDirExists(fs, trash).Ok? &&
              RestoredGroups(EnsureDirExists(fs, trash).value, trash, dirNames, |dirNames|).Some?
    ensures var r := RestoreRun(fs, trash, dirNames);
            r.status.Done? ==> r.fs == RestoredGroups(EnsureDirExists(fs, trash).value, trash, dirNames, |dirNames|).value
  {
    if |dirNames| > 0 && EnsureDirExists(fs, trash).Ok? {
      RestoreAllDone(EnsureDirExists(fs, trash).value, trash, dirNames);
    }
  }
}

=== FILE: results.dfy ===
/** Failure-carrying wrappers shared by every module of the model. */
module Results {

  /** A value that may be absent. */
  datatype Option<+T> = None | Some(value: T)

  /** The outcome of an operation that can fail with an error of type E. */
  datatype Result<+T, +E> = Ok(value: T) | Err(error: E)
}

=== FILE: sequential.dfy ===
/**
 * The loop shape rm and restore share: apply a step to each element in turn,
 * stop at the first failing step, and keep whatever the earlier steps did.
 */
module Sequential {
  import opened Results

  /** The state reached, and the error of the step that stopped the loop, if any. */
  datatype Stop<S, E> = Stop(state: S, error: Option<E>)

  /** The loop as the commands run it, from the front. */
  function RunAll<S, A, E>(s: S, xs: seq<A>, step: (S, A) -> Result<S, E>): Stop<S, E>
    decreases |xs|
  {
    if |xs| == 0 then Stop(s, None)
    else match step(s, xs[0])
      case Err(e) => Stop(s, Some(e))
      case Ok(s1) => RunAll(s1, xs[1..], step)
  }

  /** The state after the first `k` steps, one after another. */
  function RunFirst<S, A, E>(s: S, xs: seq<A>, k: nat, step: (S, A) -> Result<S, E>): Result<S, E>
    requires k <= |xs|
  {
    if k == 0 then Ok(s)
    else match RunFirst(s, xs, k - 1, step)
      case Err(e) => Err(e)
      case Ok(t) => step(t, xs[k - 1])
  }

  lemma {:induction false} RunFirstShift<S, A, E>(s: S, xs: seq<A>, k: nat, step: (S, A) -> Result<S, E>)
    requires 0 < k <= |xs|
    ensures RunFirst(s, xs, k, step) ==
              match step(s, xs[0])
              case Err(e) => Err(e)
              case Ok(t) => RunFirst(t, xs[1..], k - 1, step)
  {
    if k > 1 {
      RunFirstShift(s, xs, k - 1, step);
      assert xs[1..][k - 2] == xs[k - 1];
    }
  }

  /** The loop completes exactly when every step succeeds in turn, and then ends in the state they reach. */
  lemma {:induction false} RunAllCompletes<S, A, E>(s: S, xs: seq<A>, step: (S, A) -> Result<S, E>)
    ensures RunAll(s, xs, step).error.None? <==> RunFirst(s, xs, |xs|, step).Ok?
    ensures RunAll(s, xs, step).error.None? ==> RunAll(s, xs, step).state == RunFirst(s, xs, |xs|, step).value
    decreases |xs|
  {
    if |xs| > 0 {
      RunFirstShift(s, xs, |xs|, step);
      if step(s, xs[0]).Ok? {
        RunAllCompletes(step(s, xs[0]).value, xs[1..], step);
      }
    }
  }

  /**
   * No rollback: a loop that stops did so at some element `k`: the first `k`
   * steps succeeded, their state is the final state, and step `k` failed.
   */
  lemma {:induction false} RunAllNoRollback<S, A, E>(s: S, xs: seq<A>, step: (S, A) -> Result<S, E>)
    ensures var r := RunAll(s, xs, step);
            r.error.Some? ==>
              exists k :: 0 <= k < |xs| && RunFirst(s, xs, k, step) == Ok(r.state) &&
                          step(r.state, xs[k]) == Err(r.error.value)
    decreases |xs|
  {
    var r := RunAll(s, xs, step);
    if |xs| > 0 && r.error.Some? {
      match step(s, xs[0])
      case Err(e) =>
        assert RunFirst(s, xs, 0, step) == Ok(r.state);
      case Ok(t) =>
        RunAllNoRollback(t, xs[1..], step);
        var k :| 0 <= k < |xs[1..]| && RunFirst(t, xs[1..], k, step) == Ok(r.state) &&
                 step(r.state, xs[1..][k]) == Err(r.error.value);
        RunFirstShift(s, xs, k + 1, step);
    }
  }
}
